=== FILE: README.md ===
# Trusty log ring consumer

This project models the Linux side of the Trusty shared-memory log, found in
drivers/trusty/trusty-log.c. The secure OS (the producer) appends text to a
ring of `sz` bytes in shared memory. Its header carries the ring size `sz` and
two free-running 32-bit counters, which the drain reads:

- `alloc`: bytes reserved;
- `put`: bytes committed.

The kernel keeps its own free-running 32-bit read cursor `get` in
`trusty_log_state`, outside the shared memory. The driver checks only that
`sz` is a power of two: the drain refuses the ring with a warning otherwise,
and it does not compare `sz` with the size of the shared region.

Each time the secure side returns, the kernel drains the ring (`trusty_dump_logs`).
It reads one line at a time into a 256-byte scratch buffer (`log_read_line`) and
re-reads `alloc` to detect that the producer has overwritten what was just read.
It prints surviving lines through a rate limiter of 100 lines per second. Once
`put` equals the cursor, it stores the cursor back.

The model is split into modules:

- `Config`: the constant `TRUSTY_LINE_BUFFER_SIZE` and the longest line it
  leaves room for, the rate-limit parameters, the byte type, the `u32` counter
  type, and the newline and NUL bytes.
- `Bits`: bitwise AND on naturals, powers of two, and the fact that masking with
  `2^j - 1` is reduction modulo `2^j`.
- `Counters`: wrapping `u32` arithmetic, `is_power_of_2` and the ring index
  `g & (sz - 1)`. It also models the C conversions `log_read_line` applies to
  its `int` parameters: two's complement, wrapping `int` arithmetic and
  sign extension to `size_t`.
- `LineReader`: the declarative line read `ReadLine` and the C loop
  `LogReadLine`, proved equal.
- `RateLimit`: `trusty_log_rate_limit` and an abstract `__ratelimit` window.
- `Drain`: the drain as a function over producer observations (`DumpLogs`), and
  the C loop (`TrustyDumpLogs`), proved equal.
- `DrainProperties`: the overflow and normal cases of one turn, the printed
  text, the bound on printed lines per limiter window, within one drain and
  across successive drains sharing the static limiter, and two worked drains.
- `Delivery`: what a whole drain delivers while the producer holds still: the
  bytes from the cursor to `put`, each read once, in ring order, cut into lines,
  and printed in that order except where the rate limiter refuses a line.

The producer is unsynchronised, so every read of `put`, of the ring bytes and of
`alloc` is an arbitrary value it supplies. One turn of the loop consumes one
`Observation(put, data, alloc, now)`. The read barriers fix only the order
within a turn: `put`, then the bytes, then `alloc`. A drain is given a finite
sequence of observations. `DumpLogs` reports how many it used and whether the
drain returned within them.

## Model

| member | source | states |
|---|---|---|
| Bits.BitAnd | drivers/trusty/trusty-log.c:62 | the model of the C `&` on non-negative values; its contract bounds the result by either operand, and `Bits.MaskIsModulo` states what a mask selects |
| Bits.MaskIsModulo | drivers/trusty/trusty-log.c:59 | masking a value with `2^j - 1` keeps exactly its remainder modulo `2^j` |
| Bits.PowerOfTwoExponent | drivers/trusty/trusty-log.c:74 | a positive value that shares no bit with its predecessor is `2^j` for some `j` |
| Counters.Add32 | drivers/trusty/trusty-log.c:109 | the model of `get += read_chars` on a `u32`, wrapping at 2^32; the definition carries no contract, and `Counters.Add32Wraps` states its cases |
| Counters.Add32Wraps | drivers/trusty/trusty-log.c:109 | the wrapped sum is the plain sum when it fits, the sum less 2^32 when it overflows, and the sum plus 2^32 when it is negative |
| Counters.Sub32 | drivers/trusty/trusty-log.c:100-102 | the model of the `u32` subtractions `alloc - get` and `alloc - log->sz`, wrapping at 2^32; the definition carries no contract, and `Counters.Sub32Wraps` states its cases |
| Counters.Sub32Wraps | drivers/trusty/trusty-log.c:100-102 | the wrapped difference is the plain difference when the subtrahend is not larger, and the difference plus 2^32 otherwise |
| Counters.Sub32Inverts | drivers/trusty/trusty-log.c:100-109 | wrapped `u32` subtraction inverts wrapped addition in both directions |
| Counters.Sub32Back | drivers/trusty/trusty-log.c:102 | the counter `alloc - sz` lies exactly `sz` behind `alloc`, even across wrap-around |
| Counters.Sub32Zero | drivers/trusty/trusty-log.c:85 | the wrapped distance from `get` to `put` is zero exactly when the two counters are equal, so the loop test `put != get` is a test for unread bytes |
| Counters.Sub32Advance | drivers/trusty/trusty-log.c:106-109 | advancing the cursor by `c` bytes, without passing `put`, shortens its wrapped distance to `put` by exactly `c` |
| Counters.IsPowerOfTwo | drivers/trusty/trusty-log.c:74 | the model of `is_power_of_2`: non-zero and sharing no bit with its predecessor; the predicate carries no contract, and `Counters.PowerOfTwoIff` states which sizes it accepts |
| Counters.PowerOfTwoIff | drivers/trusty/trusty-log.c:74-75 | the `is_power_of_2` bit test accepts a `u32` exactly when it is one of `2^0 .. 2^31` |
| Counters.SizeDividesCounterRange | drivers/trusty/trusty-log.c:59 | a power-of-two ring size divides 2^32, so counter wrap-around keeps ring positions |
| Counters.MaskBySize | drivers/trusty/trusty-log.c:59 | `x & (sz - 1)` equals `x mod sz` for a power-of-two `sz` |
| Counters.RingIndex | drivers/trusty/trusty-log.c:59-62 | the masked index of a counter is its remainder modulo `sz`, so it always lies in `[0, sz)` |
| Counters.IndexIgnoresWrap | drivers/trusty/trusty-log.c:62 | the slot `k` bytes past `g` is `(g + k) mod sz` even when the `u32` counter wraps on the way |
| Counters.AsInt | drivers/trusty/trusty-log.c:90 | the model of passing the `u32` counters to the `int` parameters of log_read_line (two's complement); the definition carries no contract, and `Counters.AsIntImage` states its meaning |
| Counters.AsIntImage | drivers/trusty/trusty-log.c:90 | the `int` image of a counter is the one value in `[-2^31, 2^31)` congruent to it modulo 2^32 |
| Counters.WrapInt | drivers/trusty/trusty-log.c:57-62 | the model of the `int` arithmetic `put - get` and `get++`, which wraps at 32 bits; the definition carries no contract, and `Counters.WrapIntImage` states its meaning |
| Counters.WrapIntImage | drivers/trusty/trusty-log.c:57-62 | the wrapped `int` result is the one value in `[-2^31, 2^31)` congruent to the exact result modulo 2^32 |
| Counters.ToSizeT | drivers/trusty/trusty-log.c:57-62 | the model of the conversion of an `int` to the 64-bit `size_t` in `min_t` and in the index `get++ & mask`; the definition carries no contract, and `Counters.ToSizeTImage` states its meaning |
| Counters.ToSizeTImage | drivers/trusty/trusty-log.c:57-62 | the `size_t` image lies below 2^64, keeps a value already in range, and turns a negative `int` into `x + 2^64` |
| Counters.WrapIntSub | drivers/trusty/trusty-log.c:57-58 | subtracting the `int` images of two counters with wrap-around gives the `int` image of their `u32` difference |
| Counters.WrapIntIncrement | drivers/trusty/trusty-log.c:62 | incrementing the `int get` with wrap-around keeps it the `int` image of the advanced `u32` counter |
| Counters.MaxToRead | drivers/trusty/trusty-log.c:57-58 | the `int`/`size_t` computation of `max_to_read` equals `min(put - get, 255)` in unsigned 32-bit arithmetic, is at most 255, and is at least 1 when `put != get` |
| Counters.SignExtendedIndex | drivers/trusty/trusty-log.c:59-62 | masking the sign-extended `int` counter with the zero-extended `sz - 1` selects the same slot as the unsigned counter |
| LineReader.TakeLine | drivers/trusty/trusty-log.c:61-62 | the bytes up to the first newline form the first line: a prefix, with a newline only as last byte, ending at a newline or at the end of the input |
| LineReader.LineOfUnique | drivers/trusty/trusty-log.c:61-62 | the first line of a byte sequence is unique |
| LineReader.ReadLine | drivers/trusty/trusty-log.c:57-63 | the buffer receives, in ring order from `get`, the first line of the next `max_to_read` bytes, then a NUL inside the 256-byte buffer; the rest of the buffer is unchanged; at least one byte is copied when `put != get` |
| LineReader.CopyStep | drivers/trusty/trusty-log.c:62 | one loop turn reads slot `(get + i) mod sz`, byte `i` of the window, and its `int` increment tracks the `u32` counter |
| LineReader.CopyExtends | drivers/trusty/trusty-log.c:61-62 | storing the next byte extends the copied prefix by one and leaves the rest of the buffer as it was |
| LineReader.CopiedLine | drivers/trusty/trusty-log.c:61-62 | bytes copied up to the cap or up to and including a newline are exactly the first line of the window |
| LineReader.CopyDone | drivers/trusty/trusty-log.c:61-63 | when the copy stops at the cap or after a newline, terminating the buffer yields exactly `ReadLine` |
| LineReader.LogReadLine | drivers/trusty/trusty-log.c:52-66 | the C copy loop returns exactly the count and buffer `ReadLine` describes |
| RateLimit.Initial | drivers/trusty/trusty-log.c:28-29 | the limiter starts with a one-second window, a burst of 100 lines, nothing printed and no window open |
| RateLimit.Allow | drivers/trusty/trusty-log.c:106 | a limiter call never changes the window length or burst, and never lets the printed count exceed the burst |
| RateLimit.AllowSpendsQuota | drivers/trusty/trusty-log.c:106 | inside an open window a call is allowed exactly when quota remains, and each allowed call spends one unit |
| RateLimit.AllowOpensWindow | drivers/trusty/trusty-log.c:106 | a call after the window expires opens a new window at that time with the full burst |
| RateLimit.FirstCallAllowed | drivers/trusty/trusty-log.c:106 | the first call to a freshly initialised limiter is allowed |
| RateLimit.WindowQuota | drivers/trusty/trusty-log.c:106 | calls within one window are allowed up to exactly the quota left, and no more |
| RateLimit.Budget | drivers/trusty/trusty-log.c:28-29 | what the limiter may still let through in one window length from a time `a`: never more than the burst |
| Drain.Attach | drivers/trusty/trusty-log.c:188 | a freshly probed consumer has its cursor at 0 and a zeroed line buffer |
| Drain.CString | drivers/trusty/trusty-log.c:107 | `"%s"` prints the longest NUL-free prefix of the buffer |
| Drain.Turn | drivers/trusty/trusty-log.c:87-109 | one loop turn keeps the line buffer 256 bytes long and uses one observation |
| Drain.Loop | drivers/trusty/trusty-log.c:84-110 | the loop exits only on an observation whose `put` equals the cursor, ending with the cursor there; otherwise it uses every observation |
| Drain.DumpLogs | drivers/trusty/trusty-log.c:68-112 | a ring size that is not a power of two gives a warning and changes nothing; the stored cursor changes only when the loop exits, and then equals the `put` that ended it |
| Drain.LoopUnroll | drivers/trusty/trusty-log.c:85-110 | the loop is one turn followed by the loop from the turn's state |
| Drain.LoopExits | drivers/trusty/trusty-log.c:85 | the loop ends on an observation whose `put` equals the cursor, with no further event |
| Drain.DrainTurn | drivers/trusty/trusty-log.c:87-109 | the C statements of one turn compute exactly `Turn` |
| Drain.DrainLoop | drivers/trusty/trusty-log.c:84-110 | the C `while` loop computes exactly `Loop` |
| Drain.TrustyDumpLogs | drivers/trusty/trusty-log.c:68-112 | the C drain loop computes exactly `DumpLogs` |
| DrainProperties.InfoCountAppend | drivers/trusty/trusty-log.c:107 | printed lines of concatenated event sequences add up |
| DrainProperties.OverflowDiscardsLine | drivers/trusty/trusty-log.c:94-104 | on overflow the line is not printed and only the overflow error is logged; the limiter is untouched; the cursor becomes exactly `alloc - sz`, which no longer counts as an overflow for the same `alloc` |
| DrainProperties.NormalAdvances | drivers/trusty/trusty-log.c:106-109 | without overflow the cursor advances by exactly the bytes read, printed or not, and the line is printed exactly when the limiter allows it |
| DrainProperties.CStringStopsAtTerminator | drivers/trusty/trusty-log.c:107 | printing stops at the terminator: the text is the bytes before it, up to their first NUL |
| DrainProperties.PrintedText | drivers/trusty/trusty-log.c:63 | the text printed for a line read is that line, cut at its first NUL |
| DrainProperties.LoopEmissionBound | drivers/trusty/trusty-log.c:106-107 | a loop whose turns all fall before the end of the open limiter window prints at most the quota the window has left; it hands back the same window, with the quota less exactly the lines printed |
| DrainProperties.LoopEmissionBoundFromClosed | drivers/trusty/trusty-log.c:106-107 | a loop that starts with no window open and whose turns span at most one window length from `a` prints at most the burst: the first line offered opens the window, and the later turns fall inside it; the limiter it hands back still fits the span from `a`, with the burst less the lines printed left |
| DrainProperties.DrainEmissionBound | drivers/trusty/trusty-log.c:28-29 | a drain whose turns span at most one window length from a time `a` prints at most the burst, both when a window is open for that whole span and when none is open at `a`; the static limiter it hands on still fits the span, and its budget for the span drops by exactly the lines printed |
| DrainProperties.FreshDrainBound | drivers/trusty/trusty-log.c:28-29 | the first drain on the freshly initialised limiter prints at most 100 lines within one second, whatever the producer wrote |
| DrainProperties.Drains | drivers/trusty/trusty-log.c:113-144 | successive calls of the drain from the notifiers share the consumer state and the static limiter; a run that used no observation leaves the limiter as it was |
| DrainProperties.DrainsEmissionBound | drivers/trusty/trusty-log.c:28-29 | any number of successive drains whose turns span at most one window length print at most the burst between them, and the budget left drops by exactly the lines they printed |
| DrainProperties.FreshDrainsBound | drivers/trusty/trusty-log.c:28-29 | however many times the secure side returns in the first second after probe, the drains print at most 100 lines between them |
| DrainProperties.QuietProducer | drivers/trusty/trusty-log.c:84-85 | with `put` equal to the cursor, the drain returns at once, prints nothing and stores the same cursor |
| DrainProperties.HiTurn | drivers/trusty/trusty-log.c:87-109 | the one turn of the worked drain prints "hi\n" and moves the cursor to 3 |
| DrainProperties.ScenarioHi | drivers/trusty/trusty-log.c:68-112 | with "hi\n" committed in a 16-byte ring, a fresh consumer prints that line once and ends with its cursor at 3 |
| DrainProperties.FullRingWindow | drivers/trusty/trusty-log.c:57-62 | from cursor 4 with `put` at 20 in a 16-byte ring, the bytes read wrap round and cover the whole ring |
| DrainProperties.FullRingIsOneLine | drivers/trusty/trusty-log.c:61-62 | a ring filled with one byte that is neither a newline nor a NUL is a single line and holds no NUL |
| DrainProperties.FullRingLine | drivers/trusty/trusty-log.c:61-63 | that read yields a 16-byte line, and the whole line is printed |
| DrainProperties.OverflowFirstTurn | drivers/trusty/trusty-log.c:100-104 | 20 bytes written into a 16-byte ring: the first turn discards its line, leaves the limiter alone and jumps the cursor to 4 |
| DrainProperties.OverflowSecondTurn | drivers/trusty/trusty-log.c:106-109 | the second turn prints the 16 bytes still in the ring and moves the cursor to 20 |
| DrainProperties.OneTurnThenExit | drivers/trusty/trusty-log.c:84-110 | a loop whose first turn leaves the cursor at the next `put` read takes that one turn and exits, with that turn's events |
| DrainProperties.OverflowTail | drivers/trusty/trusty-log.c:84-110 | from cursor 4 the worked overflow prints one 16-byte line and exits at 20, whatever the second observation's `alloc` and time |
| DrainProperties.ScenarioOverflow | drivers/trusty/trusty-log.c:84-111 | 20 copies of a byte that is neither a newline nor a NUL written into a 16-byte ring: the drain logs one overflow error and one 16-byte line, then stops with the cursor at 20 |
| Delivery.Lines | drivers/trusty/trusty-log.c:57-62 | cutting bytes into lines the way successive reads do gives lines of 1 to 255 bytes with no newline before their last byte, each but the last ending at a newline or at the 255-byte cap |
| Delivery.LinesCover | drivers/trusty/trusty-log.c:57-62 | the lines put back together are exactly the bytes they were cut from: nothing lost, nothing repeated |
| Delivery.WindowShift | drivers/trusty/trusty-log.c:59-62 | a reader starting `n` bytes further on meets the window shifted by `n`, even across counter wrap-around |
| Delivery.SteadyTurn | drivers/trusty/trusty-log.c:87-109 | with `put` and `alloc` at `P`, at most a ring ahead, one turn sees no overflow, reads the first line of the next `min(P - get, 255)` bytes and moves the cursor past it, leaving the rest of the window to read |
| Delivery.SteadyLoop | drivers/trusty/trusty-log.c:84-110 | with the producer holding still at `P`, at most a ring ahead, the loop exits with the cursor at `P` after one turn per line plus the exiting one, and the lines read are the window from the cursor to `P` cut into lines |
| Delivery.LinesRead | drivers/trusty/trusty-log.c:84-109 | the bytes log_read_line copies in each turn of the loop, one line per turn taken, so never more lines than observations |
| Delivery.Verdicts | drivers/trusty/trusty-log.c:94-107 | one verdict for each line read: whether its turn saw no overflow and `__ratelimit` let it through |
| Delivery.Printed | drivers/trusty/trusty-log.c:106-107 | printing the allowed lines gives only `Info` events, none holding a NUL, at most one per line, and none when every line is refused |
| Delivery.SteadyPrints | drivers/trusty/trusty-log.c:84-110 | with the producer holding still at `P`, at most a ring ahead, the loop's events are exactly the lines it read, in order, each printed up to its first NUL where the limiter allowed it and skipped otherwise; no overflow is reported |
| Delivery.DrainDelivers | drivers/trusty/trusty-log.c:68-112 | with the producer holding still at `P`, the drain stores `P` as the cursor; the lines it read are the ring bytes from the old cursor to `P` cut into lines, which put back together are exactly those bytes, each read once and in order; and its events are those lines printed in order, less the ones the limiter refused |

## Left out

- Probe, remove and shutdown are not modelled: `trusty_log_probe`, `trusty_log_remove`, `trusty_log_shutdown` and `trusty_supports_logging`. They are SMC calls, page allocation, memory sharing and notifier registration. Only the cursor initialisation at probe is modelled (`Drain.Attach`). The rule that shared pages are leaked, not freed, when reclaiming them fails is lifecycle bookkeeping outside the drain.
- The notifier wrappers are not modelled. The call notifier takes a spinlock; the panic notifier deliberately calls the drain without it. The drain is modelled as one sequential call, so races on the cursor cannot be expressed.
- Memory barriers appear only as the fixed order of the observations within one turn: `put`, then the ring bytes, then `alloc`. Hardware memory ordering is not modelled.
- The ring bytes of a turn are one snapshot. When `max_to_read` exceeds `sz`, the copy reads some slots twice, and a real producer could change a slot between the two reads. The snapshot gives both reads the same byte.
- The ring size is taken as stable during a drain, and the observed ring is taken to hold exactly `sz` bytes. The driver checks only that `sz` is a power of two and re-reads `log->sz` at each use; a size larger than the shared region would read beyond it, and that is not modelled.
- `__ratelimit` is a kernel library function outside this file. It is modelled as an abstract window:
  - the first call opens a window;
  - a call after `begin + interval` opens a new one;
  - at most `burst` calls are allowed per window.

  Not modelled:
  - lock contention, which makes the library refuse without counting;
  - the "callbacks suppressed" report;
  - jiffies wrap-around; time is an unbounded integer supplied per turn.

  As in the library, only the end of a window is tested: a call timed before
  the window's start counts in that window.
- `dev_err`, `dev_info` and `WARN_ON` are modelled as events. The device prefix, the log levels and the stack trace are not. `Info` carries the bytes `"%s"` formats. These include a line's trailing newline, which printk treats as the end of the record.
- Termination of the drain under a producer that keeps writing is not modelled. The code does not guarantee it, so the drain is bounded by the finite observation sequence instead.
- The bitwise AND of the mask is modelled on natural numbers by a recursive definition. It is not a machine bit-vector operation.
- `DrainProperties.Drains` hands the state of a drain that ran out of observations to the next drain as it stands. In the driver that drain would still be running, and the call notifier's spinlock would hold the next one back. The emission bounds hold either way.
- No other file of the repository is part of this model. trusty-log.h, which declares the shared header `struct log_rb`, is not part of this model either; its fields appear only as the observed values.
- `TRUSTY_LOG_SIZE` (two pages) only sizes the shared region allocated at probe. The drain works with the ring's own `sz`, so the constant is not modelled.
- `size_t` is modelled as 64 bits wide (`Counters.ToSizeT`). With a 32-bit `size_t` the conversions in log_read_line give the same `max_to_read` and the same index, but that width is not modelled separately.
- `dev_info` receives the whole line buffer, trailing newline included (drivers/trusty/trusty-log.c:63, 107). So the event of the worked drain of `"hi\n"` is `Info("hi\n")`, newline and all (`DrainProperties.ScenarioHi`).
- `Delivery.DrainDelivers` assumes a producer that holds still during the drain: the same `put`, `alloc` and ring bytes in every observation. While the producer writes concurrently, the model states only what each turn does and the emission bound.

=== FILE: bits.dfy ===
/** Bitwise AND on non-negative integers, powers of two, and the facts about
    them that masked ring indexing relies on. */
module Bits {

  function Pow2(j: nat): (p: nat)
    ensures p >= 1
  {
    if j == 0 then 1 else 2 * Pow2(j - 1)
  }

  /** The C `&` of two non-negative values, bit by bit from the lowest. */
  function BitAnd(x: nat, y: nat): (r: nat)
    ensures r <= x && r <= y
    decreases x
  {
    if x == 0 || y == 0 then 0
    else 2 * BitAnd(x / 2, y / 2) + (if x % 2 == 1 && y % 2 == 1 then 1 else 0)
  }

  lemma MulAtLeast(d: int, a: int)
    requires d > 0 && a >= 1
    ensures d * a >= d
  {
    assert d * a == d * (a - 1) + d;
  }

  /** Quotient and remainder are unique. */
  lemma ModUnique(x: int, d: int, q: int, r: int)
    requires d > 0
    requires x == d * q + r
    requires 0 <= r < d
    ensures x % d == r
  {
    var q' := x / d;
    var r' := x % d;
    assert x == d * q' + r';
    assert d * (q - q') == r' - r by {
      assert d * (q - q') == d * q - d * q';
    }
    if q > q' {
      MulAtLeast(d, q - q');
    } else if q < q' {
      MulAtLeast(d, q' - q);
    }
  }

  /** Adding a multiple of the modulus does not change a remainder. */
  lemma ModAddMultiple(x: int, p: int, m: int)
    requires p > 0
    ensures (x + p * m) % p == x % p
  {
    assert x + p * m == p * (x / p + m) + x % p by {
      assert p * (x / p + m) == p * (x / p) + p * m;
    }
    ModUnique(x + p * m, p, x / p + m, x % p);
  }

  /** The remainder modulo a multiple of `p`, taken modulo `p`, is the
      remainder modulo `p`. */
  lemma ModOfMultipleMod(x: int, p: int, m: int)
    requires p > 0 && m > 0
    ensures (x % (p * m)) % p == x % p
  {
    var q := x / (p * m);
    assert x == (p * m) * q + x % (p * m);
    assert x % (p * m) == x + p * (-(m * q)) by {
      assert (p * m) * q == p * (m * q);
    }
    ModAddMultiple(x, p, -(m * q));
  }

  /** Values with the same remainder keep the same remainder when shifted
      by the same amount. */
  lemma ModShift(x: int, y: int, k: int, p: int)
    requires p > 0 && x % p == y % p
    ensures (x + k) % p == (y + k) % p
  {
    var q := x / p - y / p;
    assert x + k == (y + k) + p * q by {
      assert x == p * (x / p) + x % p;
      assert y == p * (y / p) + y % p;
      assert p * q == p * (x / p) - p * (y / p);
    }
    ModAddMultiple(y + k, p, q);
  }

  lemma {:induction false} HalveMod(x: nat, p: nat)
    requires p >= 1
    ensures x % (2 * p) == 2 * ((x / 2) % p) + x % 2
  {
    var q := x / 2;
    var b := x % 2;
    var s := q / p;
    var t := q % p;
    assert x == 2 * q + b;
    assert q == p * s + t;
    assert x == (2 * p) * s + (2 * t + b);
    ModUnique(x, 2 * p, s, 2 * t + b);
  }

  /** `2p - 1` halves to `p - 1` and is odd. */
  lemma OddHalf(p: nat)
    requires p >= 1
    ensures (2 * p - 1) / 2 == p - 1 && (2 * p - 1) % 2 == 1
  {
    ModUnique(2 * p - 1, 2, p - 1, 1);
  }

  /** One bit of the masking argument: if the mask `p - 1` keeps `x / 2`
      modulo `p`, the mask `2p - 1` keeps `x` modulo `2p`. */
  lemma MaskStep(x: nat, p: nat)
    requires p >= 1 && x > 0
    requires BitAnd(x / 2, p - 1) == (x / 2) % p
    ensures BitAnd(x, 2 * p - 1) == x % (2 * p)
  {
    OddHalf(p);
    assert BitAnd(x, 2 * p - 1) == 2 * BitAnd(x / 2, p - 1) + x % 2;
    HalveMod(x, p);
  }

  /** Masking with `2^j - 1` keeps the low `j` bits: it is the remainder
      modulo `2^j`. */
  lemma {:induction false} MaskIsModulo(x: nat, j: nat)
    ensures BitAnd(x, Pow2(j) - 1) == x % Pow2(j)
    decreases j
  {
    if j == 0 {
      assert Pow2(j) == 1;
    } else if x == 0 {
      assert BitAnd(x, Pow2(j) - 1) == 0;
    } else {
      var p := Pow2(j - 1);
      assert Pow2(j) == 2 * p;
      MaskIsModulo(x / 2, j - 1);
      MaskStep(x, p);
    }
  }

  lemma {:induction false} BitAndSelf(y: nat)
    ensures BitAnd(y, y) == y
    decreases y
  {
    if y > 0 {
      BitAndSelf(y / 2);
    }
  }

  /** A positive value sharing no bit with its predecessor is a power of two. */
  lemma {:induction false} PowerOfTwoExponent(n: nat) returns (j: nat)
    requires n > 0
    requires BitAnd(n, n - 1) == 0
    ensures n == Pow2(j)
    decreases n
  {
    if n == 1 {
      j := 0;
    } else if n % 2 == 0 {
      assert (n - 1) / 2 == n / 2 - 1;
      assert BitAnd(n, n - 1) == 2 * BitAnd(n / 2, n / 2 - 1);
      var i := PowerOfTwoExponent(n / 2);
      j := i + 1;
    } else {
      assert (n - 1) / 2 == n / 2;
      BitAndSelf(n / 2);
      assert false;
    }
  }

  /** A power of two shares no bit with its predecessor. */
  lemma Pow2HasNoLowerBits(j: nat)
    ensures BitAnd(Pow2(j), Pow2(j) - 1) == 0
  {
    MaskIsModulo(Pow2(j), j);
    ModUnique(Pow2(j), Pow2(j), 1, 0);
  }

  lemma {:induction false} Pow2Add(a: nat, b: nat)
    ensures Pow2(a + b) == Pow2(a) * Pow2(b)
    decreases a
  {
    if a > 0 {
      Pow2Add(a - 1, b);
      assert Pow2(a + b) == 2 * (Pow2(a - 1) * Pow2(b));
    }
  }

  lemma Pow2Monotone(j: nat, k: nat)
    requires k <= j
    ensures Pow2(k) <= Pow2(j)
  {
    Pow2Add(k, j - k);
    MulAtLeast(Pow2(k), Pow2(j - k));
  }

  /** A power of two below `2^k` has an exponent below `k`. */
  lemma Pow2ExponentBelow(j: nat, k: nat)
    requires Pow2(j) < Pow2(k)
    ensures j < k
  {
    if k <= j {
      Pow2Monotone(j, k);
    }
  }
}

=== FILE: config.dfy ===
/** Configuration constants of the Trusty log driver, the byte type of the
    shared log ring and the 32-bit unsigned counter type. */
module Config {

  /** One byte of the shared ring or of the line buffer (a C `char`). */
  newtype byte = b: int | 0 <= b < 256

  /** TRUSTY_LINE_BUFFER_SIZE: capacity of the per-instance line scratch buffer. */
  const LineBufferSize: nat := 256

  /** The longest line log_read_line copies: one byte of the buffer is kept
      for the terminating NUL. */
  const MaxLineLength: nat := LineBufferSize - 1

  /** Rate limit of trusty_log_rate_limit: a window of one second ... */
  const RateLimitSeconds: nat := 1

  /** ... in which at most 100 lines are printed. */
  const RateLimitBurst: nat := 100

  const Two32: int := 0x1_0000_0000

  /** A C `u32`. Arithmetic on it wraps explicitly, see module Counters. */
  type u32 = x: int | 0 <= x < Two32

  const Newline: byte := 10
  const Nul: byte := 0
}

=== FILE: counters.dfy ===
/** The 32-bit counters of the log ring and the C integer conversions that
    log_read_line applies to them (drivers/trusty/trusty-log.c:52-62).

    The producer's `put` and `alloc` and the consumer's `get` are free-running
    `u32` counters: they are never reduced modulo the ring size, only masked
    when used as an index, and they wrap at 2^32. */
module Counters {
  import opened Config
  import opened Bits

  const Two31: int := 0x8000_0000
  const Two64: int := 0x1_0000_0000_0000_0000

  /** `a + n` on a `u32`, wrapping at 2^32. */
  function Add32(a: u32, n: int): u32
  {
    (a + n) % Two32
  }

  /** `a - b` on two `u32`s, wrapping at 2^32. */
  function Sub32(a: u32, b: u32): u32
  {
    (a - b) % Two32
  }

  /** The wrapped sum is the plain sum when it fits, and otherwise the sum
      brought back into range by one turn of 2^32. */
  lemma Add32Wraps(a: u32, n: int)
    ensures 0 <= a + n < Two32 ==> Add32(a, n) == a + n
    ensures Two32 <= a + n < 2 * Two32 ==> Add32(a, n) == a + n - Two32
    ensures -Two32 <= a + n < 0 ==> Add32(a, n) == a + n + Two32
  {
  }

  /** The wrapped difference is the plain difference when `b <= a`, and the
      difference plus 2^32 when `b` is ahead. */
  lemma Sub32Wraps(a: u32, b: u32)
    ensures b <= a ==> Sub32(a, b) == a - b
    ensures a < b ==> Sub32(a, b) == a - b + Two32
  {
  }

  /** Advancing `b` by the wrapped distance from `b` to `a` lands on `a`, and
      the distance from `b` to `b + n` is `n` for every `n` below 2^32: the
      wrapped difference is the inverse of the wrapped advance. */
  lemma Sub32Inverts(a: u32, b: u32, n: nat)
    requires n < Two32
    ensures Add32(b, Sub32(a, b)) == a
    ensures Sub32(Add32(b, n), b) == n
  {
    ModAddMultiple(a - b, Two32, -((a - b) / Two32));
    assert b + Sub32(a, b) == a + Two32 * (-((a - b) / Two32)) by {
      assert a - b == Two32 * ((a - b) / Two32) + (a - b) % Two32;
    }
    ModAddMultiple(a, Two32, -((a - b) / Two32));
    var s := b + n;
    assert Add32(b, n) - b == n + Two32 * (-(s / Two32)) by {
      assert s == Two32 * (s / Two32) + s % Two32;
    }
    ModAddMultiple(n, Two32, -(s / Two32));
  }

  /** The counter `b` behind `a` is at distance `b` from `a`. */
  lemma Sub32Back(a: u32, b: u32)
    ensures Sub32(a, Sub32(a, b)) == b
  {
    var d := a - b;
    assert a - Sub32(a, b) == b + Two32 * (d / Two32) by {
      assert d == Two32 * (d / Two32) + d % Two32;
    }
    ModAddMultiple(b, Two32, d / Two32);
  }

  /** The wrapped distance between two counters is zero exactly when they
      are equal. */
  lemma Sub32Zero(a: u32, b: u32)
    ensures Sub32(a, b) == 0 <==> a == b
  {
    Sub32Inverts(a, b, 0);
  }

  /** Advancing a counter by `c` toward `a`, without passing it, shortens
      its wrapped distance to `a` by exactly `c`. */
  lemma Sub32Advance(a: u32, b: u32, c: nat)
    requires c <= Sub32(a, b)
    ensures Sub32(a, Add32(b, c)) == Sub32(a, b) - c
  {
    var d := a - b;
    var s := b + c;
    assert a - Add32(b, c) == (Sub32(a, b) - c) + Two32 * (d / Two32 + s / Two32) by {
      assert d == Two32 * (d / Two32) + d % Two32;
      assert s == Two32 * (s / Two32) + s % Two32;
    }
    ModAddMultiple(Sub32(a, b) - c, Two32, d / Two32 + s / Two32);
    ModUnique(Sub32(a, b) - c, Two32, 0, Sub32(a, b) - c);
  }

  /** Two wrapped advances make one. */
  lemma Add32Twice(a: u32, m: int, n: int)
    ensures Add32(Add32(a, m), n) == Add32(a, m + n)
  {
    var s := a + m;
    assert Add32(a, m) + n == (a + m + n) + Two32 * (-(s / Two32)) by {
      assert s == Two32 * (s / Two32) + s % Two32;
    }
    ModAddMultiple(a + m + n, Two32, -(s / Two32));
  }

  /** The kernel's is_power_of_2: non-zero and sharing no bit with its
      predecessor, which holds exactly for the 32 powers of two a `u32` can
      hold. */
  predicate IsPowerOfTwo(n: u32)
  {
    n != 0 && BitAnd(n, n - 1) == 0
  }

  lemma Pow2Of32()
    ensures Pow2(32) == Two32
  {
    Pow2Add(1, 1);
    Pow2Add(2, 2);
    Pow2Add(4, 4);
    Pow2Add(8, 8);
    Pow2Add(16, 16);
  }

  /** The bit test accepts exactly the 32 powers of two a `u32` can hold. */
  lemma PowerOfTwoIff(n: u32)
    ensures IsPowerOfTwo(n) <==> exists j: nat :: j < 32 && n == Pow2(j)
  {
    if IsPowerOfTwo(n) {
      var j := PowerOfTwoExponent(n);
      Pow2Of32();
      Pow2ExponentBelow(j, 32);
    }
    if exists j: nat :: j < 32 && n == Pow2(j) {
      var j: nat :| j < 32 && n == Pow2(j);
      Pow2HasNoLowerBits(j);
    }
  }

  /** A power-of-two ring size divides the counter range, so wrapping a
      counter at 2^32 never moves its position in the ring. */
  lemma SizeDividesCounterRange(sz: u32) returns (m: nat)
    requires IsPowerOfTwo(sz)
    ensures m > 0 && Two32 == sz * m
  {
    var j := PowerOfTwoExponent(sz);
    Pow2Of32();
    Pow2ExponentBelow(j, 32);
    Pow2Add(j, 32 - j);
    m := Pow2(32 - j);
  }

  /** Masking with one less than a power-of-two size is reduction modulo
      that size. */
  lemma MaskBySize(g: nat, sz: u32)
    requires IsPowerOfTwo(sz)
    ensures BitAnd(g, sz - 1) == g % sz
  {
    var j := PowerOfTwoExponent(sz);
    MaskIsModulo(g, j);
  }

  /** The slot `counter & (sz - 1)` of the ring: for a power-of-two size it
      is the counter modulo the size, hence always inside the ring
      (drivers/trusty/trusty-log.c:59, 62). */
  function RingIndex(g: u32, sz: u32): (r: nat)
    requires IsPowerOfTwo(sz)
    ensures r < sz
    ensures r == g % sz
  {
    MaskBySize(g, sz);
    BitAnd(g, sz - 1)
  }

  /** Reading `k` bytes past `g` lands on slot `(g + k) mod sz` even when the
      counter wraps at 2^32 on the way. */
  lemma IndexIgnoresWrap(g: u32, k: nat, sz: u32)
    requires IsPowerOfTwo(sz)
    ensures RingIndex(Add32(g, k), sz) == (g + k) % sz
  {
    var m := SizeDividesCounterRange(sz);
    ModOfMultipleMod(g + k, sz, m);
  }

  /** The C conversion of a `u32` to `int` (two's complement). */
  function AsInt(x: u32): int
  {
    if x < Two31 then x else x - Two32
  }

  /** The signed image of a counter is the one 32-bit signed value congruent
      to it modulo 2^32. */
  lemma AsIntImage(x: u32)
    ensures -Two31 <= AsInt(x) < Two31
    ensures (AsInt(x) - x) % Two32 == 0
  {
  }

  /** Signed `int` arithmetic wraps at 32 bits: the kernel is built with
      -fno-strict-overflow. */
  function WrapInt(x: int): int
  {
    AsInt(x % Two32)
  }

  /** Wrapped `int` arithmetic yields the one 32-bit signed value congruent
      to the exact result modulo 2^32. */
  lemma WrapIntImage(x: int)
    ensures -Two31 <= WrapInt(x) < Two31
    ensures (WrapInt(x) - x) % Two32 == 0
  {
    ModAddMultiple(AsInt(x % Two32) - x % Two32, Two32, x / Two32);
    assert x == Two32 * (x / Two32) + x % Two32;
  }

  /** The C conversion of an `int` to the 64-bit `size_t`. */
  function ToSizeT(x: int): nat
  {
    x % Two64
  }

  /** Converting to `size_t` keeps a value already in range and turns a
      negative `int` into `x + 2^64`. */
  lemma ToSizeTImage(x: int)
    ensures ToSizeT(x) < Two64
    ensures 0 <= x < Two64 ==> ToSizeT(x) == x
    ensures -Two64 <= x < 0 ==> ToSizeT(x) == x + Two64
  {
  }

  function MinSizeT(a: nat, b: nat): nat
  {
    if a < b then a else b
  }

  /** Subtracting the signed images of two counters and wrapping gives the
      signed image of their wrapped difference. */
  lemma WrapIntSub(put: u32, get: u32)
    ensures WrapInt(AsInt(put) - AsInt(get)) == AsInt(Sub32(put, get))
  {
    var d := AsInt(put) - AsInt(get);
    var e := (if put >= Two31 then -1 else 0) - (if get >= Two31 then -1 else 0);
    assert d == (put - get) + Two32 * e;
    ModAddMultiple(put - get, Two32, e);
  }

  /** Incrementing the signed image of a counter and wrapping gives the
      signed image of the incremented counter: the `int get` of
      log_read_line always mirrors the `u32` counter it came from. */
  lemma WrapIntIncrement(g: u32)
    ensures WrapInt(AsInt(g) + 1) == AsInt(Add32(g, 1))
  {
    if g >= Two31 {
      ModAddMultiple(g + 1, Two32, -1);
    }
  }

  /** `max_to_read`: `put` and `get` are passed as `int`, subtracted as
      `int`, converted to `size_t` and capped at one less than the line
      buffer. A negative difference becomes a huge `size_t`, so the C
      computation equals the cap applied to the unsigned 32-bit distance
      from `get` to `put`, and it is at least one byte whenever the two
      counters differ (drivers/trusty/trusty-log.c:57-58). */
  function MaxToRead(put: u32, get: u32): (r: nat)
    ensures r <= MaxLineLength
    ensures r == if Sub32(put, get) < MaxLineLength then Sub32(put, get) else MaxLineLength
    ensures put != get ==> r >= 1
  {
    WrapIntSub(put, get);
    MinSizeT(ToSizeT(WrapInt(AsInt(put) - AsInt(get))), LineBufferSize - 1)
  }

  /** The index `get & mask` of log_read_line: the `int` counter is sign
      extended to `size_t` and masked with the zero-extended `sz - 1`. The
      result is the slot of the unsigned counter, whatever its sign as an
      `int` (drivers/trusty/trusty-log.c:59, 62). */
  lemma SignExtendedIndex(g: u32, sz: u32)
    requires IsPowerOfTwo(sz)
    ensures BitAnd(ToSizeT(AsInt(g)), sz - 1) == RingIndex(g, sz)
  {
    var wide := ToSizeT(AsInt(g));
    MaskBySize(wide, sz);
    if g < Two31 {
      ModUnique(g, Two64, 0, g);
      assert wide == g;
    } else {
      ToSizeTNegative(g - Two32);
      var m := SizeDividesCounterRange(sz);
      SizeDividesSizeTGap(sz, m);
      assert wide == g + sz * (m * (Two32 - 1));
      ModAddMultiple(g, sz, m * (Two32 - 1));
    }
  }

  /** A negative `int` converts to `size_t` by adding 2^64. */
  lemma ToSizeTNegative(v: int)
    requires -Two31 <= v < 0
    ensures ToSizeT(v) == v + Two64
  {
    ModUnique(v, Two64, -1, v + Two64);
  }

  /** Sign extension adds `2^64 - 2^32`, a multiple of every power-of-two
      ring size. */
  lemma SizeDividesSizeTGap(sz: u32, m: nat)
    requires Two32 == sz * m
    ensures Two64 - Two32 == sz * (m * (Two32 - 1))
  {
    assert Two64 - Two32 == Two32 * (Two32 - 1);
    assert (sz * m) * (Two32 - 1) == sz * (m * (Two32 - 1));
  }
}

=== FILE: delivery.dfy ===
/** What the drain delivers over a whole loop. While the producer holds
    still (its `put` and `alloc` stay at one value `P` and the ring bytes do
    not change) and has not lapped the consumer, the loop reads the bytes
    from the cursor up to `P` exactly once, in ring order, cut into lines of
    at most 255 bytes that each end at a newline or at the cap, and stops
    with the cursor at `P`. Every line is read by exactly one turn, whether
    the rate limiter prints it or not, so a suppressed line is never read
    again; the events are the lines read, in order, as "%s" prints them,
    less those the limiter refused (drivers/trusty/trusty-log.c:84-111). */
module Delivery {
  import opened Config
  import opened Bits
  import opened Counters
  import opened LineReader
  import opened RateLimit
  import opened Drain
  import opened DrainProperties

  /** How many bytes one read may take from a remaining window of `n`
      bytes: `min(n, 255)`. */
  function Cap(n: nat): nat
  {
    if n < MaxLineLength then n else MaxLineLength
  }

  /** The lines a reader cuts `w` into when each read takes the first line
      of the next 255 bytes at most. Every line holds between 1 and 255
      bytes, holds no newline before its last byte, and every line but the
      last ends at a newline or at the cap. */
  function Lines(w: seq<byte>): (lines: seq<seq<byte>>)
    ensures forall k :: 0 <= k < |lines| ==> 1 <= |lines[k]| <= MaxLineLength
    ensures forall k :: 0 <= k < |lines| ==>
              forall j :: 0 <= j < |lines[k]| - 1 ==> lines[k][j] != Newline
    ensures forall k :: 0 <= k < |lines| - 1 ==>
              |lines[k]| == MaxLineLength || lines[k][|lines[k]| - 1] == Newline
    decreases |w|
  {
    if |w| == 0 then []
    else
      var line := TakeLine(w[..Cap(|w|)]);
      [line] + Lines(w[|line|..])
  }

  /** The bytes of `lines`, one after the other. */
  function Concat(lines: seq<seq<byte>>): seq<byte>
  {
    if |lines| == 0 then [] else lines[0] + Concat(lines[1..])
  }

  /** The first line of a non-empty `w` is a non-empty prefix of it, and
      the rest of `w` is cut after it. */
  lemma LinesUnroll(w: seq<byte>)
    requires |w| > 0
    ensures var line := TakeLine(w[..Cap(|w|)]);
            1 <= |line| <= |w| && line == w[..|line|]
            && Lines(w) == [line] + Lines(w[|line|..])
  {
  }

  /** Cutting into lines loses and repeats nothing: the lines put back
      together are the bytes they were cut from. */
  lemma {:induction false} LinesCover(w: seq<byte>)
    ensures Concat(Lines(w)) == w
    decreases |w|
  {
    if |w| > 0 {
      var line := TakeLine(w[..Cap(|w|)]);
      var rest := Lines(w[|line|..]);
      LinesUnroll(w);
      assert ([line] + rest)[1..] == rest;
      LinesCover(w[|line|..]);
      assert w == w[..|line|] + w[|line|..];
    }
  }

  /** The lines the loop reads, turn by turn, until it exits or runs out of
      observations: the bytes log_read_line copies in each turn, including
      those of a turn that then detects an overflow. */
  function LinesRead(sz: u32, get: u32, buffer: seq<byte>, lim: Limiter, obs: seq<Observation>)
    : (lines: seq<seq<byte>>)
    requires IsPowerOfTwo(sz) && RingShaped(sz, obs) && |buffer| == LineBufferSize
    ensures |lines| <= |obs|
    decreases |obs|
  {
    if |obs| == 0 || obs[0].put == get then []
    else
      var line := ReadLine(buffer, obs[0].data, sz, obs[0].put, get);
      var t := Turn(sz, get, buffer, lim, obs[0]);
      [line.buffer[..line.count]] + LinesRead(sz, t.get, t.buffer, t.limiter, obs[1..])
  }

  /** A reader starting `n` bytes further on meets the window shifted by
      `n`, even when the counter wraps at 2^32 on the way. */
  lemma WindowShift(data: seq<byte>, sz: u32, get: u32, n: nat, len: nat)
    requires IsPowerOfTwo(sz) && |data| == sz
    ensures Window(data, sz, Add32(get, n), len) == Window(data, sz, get, n + len)[n..]
  {
    var shifted := Window(data, sz, Add32(get, n), len);
    var longer := Window(data, sz, get, n + len);
    IndexIgnoresWrap(get, n, sz);
    assert Add32(get, n) % sz == (get + n) % sz;
    forall k | 0 <= k < len
      ensures shifted[k] == longer[n + k]
    {
      ModShift(Add32(get, n), get + n, k, sz);
    }
    assert shifted == longer[n..];
  }

  /** Reading fewer bytes meets a prefix of the longer window. */
  lemma WindowPrefix(data: seq<byte>, sz: u32, get: u32, m: nat, n: nat)
    requires sz > 0 && |data| == sz && m <= n
    ensures Window(data, sz, get, m) == Window(data, sz, get, n)[..m]
  {
  }

  /** The observations of a producer that holds still at `P` with the ring
      bytes `data`. */
  predicate Steady(obs: seq<Observation>, data: seq<byte>, P: u32)
  {
    forall k :: 0 <= k < |obs| ==> obs[k].put == P && obs[k].alloc == P && obs[k].data == data
  }

  /** One turn of a loop whose producer holds still at `P`, less than a
      ring ahead of the cursor: the turn sees no overflow, reads the first
      line of the next `min(P - get, 255)` bytes, and moves the cursor past
      it, so the distance to `P` shrinks by the line's length and the window
      still to read is the rest of the old one. */
  lemma SteadyTurn(sz: u32, get: u32, buffer: seq<byte>, lim: Limiter, ob: Observation,
                   data: seq<byte>, P: u32)
    requires IsPowerOfTwo(sz) && |data| == sz && |buffer| == LineBufferSize
    requires ob.put == P && ob.alloc == P && ob.data == data
    requires 0 < Sub32(P, get) <= sz
    ensures var d := Sub32(P, get);
            var w := Window(data, sz, get, d);
            var line := ReadLine(buffer, data, sz, P, get);
            var t := Turn(sz, get, buffer, lim, ob);
            1 <= line.count <= d
            && line.buffer[..line.count] == TakeLine(w[..Cap(d)])
            && t.get == Add32(get, line.count)
            && Sub32(P, t.get) == d - line.count
            && Window(data, sz, t.get, d - line.count) == w[line.count..]
  {
    var d := Sub32(P, get);
    var w := Window(data, sz, get, d);
    var line := ReadLine(buffer, data, sz, P, get);
    Sub32Zero(P, get);
    WindowPrefix(data, sz, get, MaxToRead(P, get), d);
    LineOfUnique(w[..Cap(d)], line.buffer[..line.count], TakeLine(w[..Cap(d)]));
    Sub32Advance(P, get, line.count);
    WindowShift(data, sz, get, line.count, d - line.count);
  }

  /** A steady producer stays steady for the remaining turns. */
  lemma SteadyRest(obs: seq<Observation>, data: seq<byte>, P: u32)
    requires |obs| > 0 && Steady(obs, data, P)
    ensures Steady(obs[1..], data, P)
  {
    forall k | 0 <= k < |obs[1..]|
      ensures obs[1..][k] == obs[k + 1]
    {
    }
  }

  /** Unrolling the first turn of the loop and of the lines it reads. */
  lemma LinesReadUnroll(sz: u32, get: u32, buffer: seq<byte>, lim: Limiter, obs: seq<Observation>)
    requires IsPowerOfTwo(sz) && RingShaped(sz, obs) && |buffer| == LineBufferSize
    requires |obs| > 0 && obs[0].put != get
    ensures var line := ReadLine(buffer, obs[0].data, sz, obs[0].put, get);
            var t := Turn(sz, get, buffer, lim, obs[0]);
            var r := Loop(sz, t.get, t.buffer, t.limiter, obs[1..]);
            var whole := Loop(sz, get, buffer, lim, obs);
            whole.exited == r.exited && whole.get == r.get && whole.used == r.used + 1
            && LinesRead(sz, get, buffer, lim, obs)
               == [line.buffer[..line.count]] + LinesRead(sz, t.get, t.buffer, t.limiter, obs[1..])
  {
  }

  /** The loop over a producer that holds still at `P`, less than a ring
      ahead of the cursor, with enough observations for one turn per byte
      and one more: it returns with the cursor at `P`, after one turn per
      line read and the turn that exits, and the lines read are exactly the
      window from the cursor to `P` cut into lines. */
  lemma {:induction false} SteadyLoop(sz: u32, get: u32, buffer: seq<byte>, lim: Limiter,
                                      obs: seq<Observation>, data: seq<byte>, P: u32)
    requires IsPowerOfTwo(sz) && |data| == sz && |buffer| == LineBufferSize
    requires Steady(obs, data, P)
    requires Sub32(P, get) <= sz && Sub32(P, get) < |obs|
    ensures RingShaped(sz, obs)
    ensures var r := Loop(sz, get, buffer, lim, obs);
            r.exited && r.get == P && r.used == |LinesRead(sz, get, buffer, lim, obs)| + 1
    ensures LinesRead(sz, get, buffer, lim, obs) == Lines(Window(data, sz, get, Sub32(P, get)))
    decreases |obs|
  {
    var d := Sub32(P, get);
    Sub32Zero(P, get);
    if d == 0 {
      assert Window(data, sz, get, d) == [];
    } else {
      var t := Turn(sz, get, buffer, lim, obs[0]);
      var w := Window(data, sz, get, d);
      SteadyTurn(sz, get, buffer, lim, obs[0], data, P);
      SteadyRest(obs, data, P);
      LinesReadUnroll(sz, get, buffer, lim, obs);
      LinesUnroll(w);
      SteadyLoop(sz, t.get, t.buffer, t.limiter, obs[1..], data, P);
    }
  }

  /** The limiter's verdict on each line the loop reads: whether the turn
      that read it found no overflow and was let through by `__ratelimit`. */
  function Verdicts(sz: u32, get: u32, buffer: seq<byte>, lim: Limiter, obs: seq<Observation>)
    : (allowed: seq<bool>)
    requires IsPowerOfTwo(sz) && RingShaped(sz, obs) && |buffer| == LineBufferSize
    ensures |allowed| == |LinesRead(sz, get, buffer, lim, obs)|
    decreases |obs|
  {
    if |obs| == 0 || obs[0].put == get then []
    else
      var t := Turn(sz, get, buffer, lim, obs[0]);
      [Sub32(obs[0].alloc, get) <= sz && Allow(lim, obs[0].now).allowed]
        + Verdicts(sz, t.get, t.buffer, t.limiter, obs[1..])
  }

  /** The events of printing, in order, each line whose verdict allows it,
      as "%s" prints it, and nothing for the others. */
  function Printed(lines: seq<seq<byte>>, allowed: seq<bool>): (events: seq<Event>)
    requires |lines| == |allowed|
    ensures |events| <= |lines|
    ensures forall k :: 0 <= k < |events| ==> events[k].Info? && Nul !in events[k].text
    ensures (forall k :: 0 <= k < |allowed| ==> !allowed[k]) ==> events == []
  {
    if |lines| == 0 then []
    else (if allowed[0] then [Info(CString(lines[0]))] else []) + Printed(lines[1..], allowed[1..])
  }

  /** The loop over a producer that holds still at `P`, less than a ring
      ahead of the cursor, prints exactly the lines it reads, in order, as
      "%s" prints them, skipping those the limiter refuses: no overflow is
      reported and no line is printed twice. */
  lemma {:induction false} SteadyPrints(sz: u32, get: u32, buffer: seq<byte>, lim: Limiter,
                                        obs: seq<Observation>, data: seq<byte>, P: u32)
    requires IsPowerOfTwo(sz) && |data| == sz && |buffer| == LineBufferSize
    requires Steady(obs, data, P)
    requires Sub32(P, get) <= sz && Sub32(P, get) < |obs|
    ensures RingShaped(sz, obs)
    ensures Loop(sz, get, buffer, lim, obs).events
            == Printed(LinesRead(sz, get, buffer, lim, obs), Verdicts(sz, get, buffer, lim, obs))
    decreases |obs|
  {
    var d := Sub32(P, get);
    Sub32Zero(P, get);
    if d > 0 {
      var ob := obs[0];
      var line := ReadLine(buffer, data, sz, P, get);
      var t := Turn(sz, get, buffer, lim, ob);
      var v := Allow(lim, ob.now).allowed;
      var text := line.buffer[..line.count];
      SteadyTurn(sz, get, buffer, lim, ob, data, P);
      NormalAdvances(sz, get, buffer, lim, ob);
      PrintedText(buffer, data, sz, P, get);
      SteadyRest(obs, data, P);
      LinesReadUnroll(sz, get, buffer, lim, obs);
      SteadyPrints(sz, t.get, t.buffer, t.limiter, obs[1..], data, P);
      var lines := LinesRead(sz, t.get, t.buffer, t.limiter, obs[1..]);
      var verdicts := Verdicts(sz, t.get, t.buffer, t.limiter, obs[1..]);
      assert ([text] + lines)[1..] == lines;
      assert ([v] + verdicts)[1..] == verdicts;
      assert t.events == if v then [Info(CString(text))] else [];
    }
  }

  /** A drain while the producer holds still at `P`, less than a ring ahead
      of the stored cursor: given one observation per byte to read and one
      more, it returns with the stored cursor at `P`; the lines it read are
      the ring bytes from the old cursor to `P` cut into lines, which put
      back together are exactly those bytes, each read once and in ring
      order; and its events are those lines, printed in order as "%s"
      prints them, except the ones the limiter refused. */
  lemma DrainDelivers(s: Consumer, lim: Limiter, sz: u32, obs: seq<Observation>,
                      data: seq<byte>, P: u32)
    requires Valid(s) && IsPowerOfTwo(sz) && |data| == sz
    requires Steady(obs, data, P)
    requires Sub32(P, s.get) <= sz && Sub32(P, s.get) < |obs|
    ensures RingShaped(sz, obs)
    ensures DumpLogs(s, lim, sz, obs).returned && DumpLogs(s, lim, sz, obs).consumer.get == P
    ensures LinesRead(sz, s.get, s.lineBuffer, lim, obs) == Lines(Window(data, sz, s.get, Sub32(P, s.get)))
    ensures Concat(LinesRead(sz, s.get, s.lineBuffer, lim, obs)) == Window(data, sz, s.get, Sub32(P, s.get))
    ensures DumpLogs(s, lim, sz, obs).events
            == Printed(LinesRead(sz, s.get, s.lineBuffer, lim, obs), Verdicts(sz, s.get, s.lineBuffer, lim, obs))
  {
    SteadyLoop(sz, s.get, s.lineBuffer, lim, obs, data, P);
    SteadyPrints(sz, s.get, s.lineBuffer, lim, obs, data, P);
    LinesCover(Window(data, sz, s.get, Sub32(P, s.get)));
  }
}

=== FILE: drain.dfy ===
/** trusty_dump_logs (drivers/trusty/trusty-log.c:68-112): drain the shared
    log ring from the consumer's cursor up to the producer's `put`.

    The producer runs on the secure side without any lock, so every read of
    `log->put`, of the ring bytes and of `log->alloc` is an observation it
    chooses. The read barriers fix their order within one turn of the loop:
    `put`, then the bytes, then `alloc`. A drain is therefore given a finite
    sequence of observations, one per turn; it either returns within them or
    is still running when they are used up.

    `DumpLogs` is the drain as a function; `TrustyDumpLogs` is the C loop,
    proved to compute the same outcome. */
module Drain {
  import opened Config
  import opened Counters
  import opened LineReader
  import opened RateLimit

  /** What one turn of the loop sees: `log->put`, the ring bytes read by
      log_read_line, `log->alloc`, and the jiffies at the __ratelimit call. */
  datatype Observation = Observation(put: u32, data: seq<byte>, alloc: u32, now: int)

  /** Kernel log output of the drain: the WARN_ON of a bad ring size, the
      "log overflow." error, and a drained line printed with "%s". */
  datatype Event = SizeWarning | OverflowError | Info(text: seq<byte>)

  /** The part of trusty_log_state the drain uses: the cursor `get` and the
      line scratch buffer (drivers/trusty/trusty-log.c:41, 49). */
  datatype Consumer = Consumer(get: u32, lineBuffer: seq<byte>)

  predicate Valid(c: Consumer)
  {
    |c.lineBuffer| == LineBufferSize
  }

  /** The state probe sets up: allocated zeroed, with the cursor at the start
      of the ring (drivers/trusty/trusty-log.c:179, 188). */
  function Attach(): (c: Consumer)
    ensures Valid(c) && c.get == 0
    ensures forall k :: 0 <= k < |c.lineBuffer| ==> c.lineBuffer[k] == Nul
  {
    Consumer(0, seq(LineBufferSize, _ => Nul))
  }

  /** Every observed ring holds `sz` bytes. */
  predicate RingShaped(sz: u32, obs: seq<Observation>)
  {
    forall k :: 0 <= k < |obs| ==> |obs[k].data| == sz
  }

  /** The text "%s" prints from a buffer: the bytes before its first NUL. */
  function CString(buf: seq<byte>): (text: seq<byte>)
    ensures text <= buf
    ensures Nul !in text
    ensures |text| < |buf| ==> buf[|text|] == Nul
  {
    if |buf| == 0 || buf[0] == Nul then []
    else [buf[0]] + CString(buf[1..])
  }

  /** Progress of the loop: cursor, line buffer and limiter after the turns
      taken, the events they produced, how many observations they used, and
      whether the loop exited. */
  datatype Run = Run(get: u32, buffer: seq<byte>, limiter: Limiter, events: seq<Event>,
                     used: nat, exited: bool)

  /** One turn of the loop after `put` was seen to differ from `get`
      (drivers/trusty/trusty-log.c:87-109). */
  function Turn(sz: u32, get: u32, buffer: seq<byte>, lim: Limiter, ob: Observation): (r: Run)
    requires IsPowerOfTwo(sz) && |ob.data| == sz && |buffer| == LineBufferSize
    ensures |r.buffer| == LineBufferSize && r.used == 1 && !r.exited
  {
    var line := ReadLine(buffer, ob.data, sz, ob.put, get);
    if Sub32(ob.alloc, get) > sz then
      Run(Sub32(ob.alloc, sz), line.buffer, lim, [OverflowError], 1, false)
    else
      var v := Allow(lim, ob.now);
      Run(Add32(get, line.count), line.buffer, v.next,
          if v.allowed then [Info(CString(line.buffer))] else [], 1, false)
  }

  /** The loop from cursor `get` over the observations `obs`. It exits only
      on an observation whose `put` equals the cursor, and then ends with the
      cursor there; otherwise it uses every observation. */
  function Loop(sz: u32, get: u32, buffer: seq<byte>, lim: Limiter, obs: seq<Observation>): (r: Run)
    requires IsPowerOfTwo(sz) && RingShaped(sz, obs) && |buffer| == LineBufferSize
    ensures |r.buffer| == LineBufferSize
    ensures r.exited ==> 1 <= r.used <= |obs| && obs[r.used - 1].put == r.get
    ensures !r.exited ==> r.used == |obs|
    decreases |obs|
  {
    if |obs| == 0 then Run(get, buffer, lim, [], 0, false)
    else if obs[0].put == get then Run(get, buffer, lim, [], 1, true)
    else
      var t := Turn(sz, get, buffer, lim, obs[0]);
      var r := Loop(sz, t.get, t.buffer, t.limiter, obs[1..]);
      r.(events := t.events + r.events, used := r.used + 1)
  }

  /** The result of one drain: the consumer state, the limiter, the events,
      the number of observations used, and whether the drain returned. */
  datatype Outcome = Outcome(consumer: Consumer, limiter: Limiter, events: seq<Event>,
                             used: nat, returned: bool)

  /** trusty_dump_logs. A ring size that is not a power of two is refused
      with a warning and nothing else changes. Otherwise the stored cursor is
      written only when the loop exits, and then with the `put` of the
      observation that ended it (drivers/trusty/trusty-log.c:74-75, 84-85,
      111). */
  function DumpLogs(s: Consumer, lim: Limiter, sz: u32, obs: seq<Observation>): (o: Outcome)
    requires Valid(s) && RingShaped(sz, obs)
    ensures Valid(o.consumer) && o.used <= |obs|
    ensures !IsPowerOfTwo(sz) ==> o == Outcome(s, lim, [SizeWarning], 0, true)
    ensures IsPowerOfTwo(sz) && o.returned ==> o.used >= 1 && o.consumer.get == obs[o.used - 1].put
    ensures !o.returned ==> o.consumer.get == s.get && o.used == |obs|
  {
    if !IsPowerOfTwo(sz) then Outcome(s, lim, [SizeWarning], 0, true)
    else
      var r := Loop(sz, s.get, s.lineBuffer, lim, obs);
      Outcome(Consumer(if r.exited then r.get else s.get, r.buffer), r.limiter, r.events,
              r.used, r.exited)
  }

  /** `r` preceded by `k` turns that produced `events`. */
  function After(events: seq<Event>, k: nat, r: Run): Run
  {
    r.(events := events + r.events, used := k + r.used)
  }

  /** Unrolling one turn of the loop. */
  lemma LoopUnroll(sz: u32, get: u32, buffer: seq<byte>, lim: Limiter, obs: seq<Observation>,
                   events: seq<Event>, k: nat)
    requires IsPowerOfTwo(sz) && RingShaped(sz, obs) && |buffer| == LineBufferSize
    requires |obs| > 0 && obs[0].put != get
    ensures var t := Turn(sz, get, buffer, lim, obs[0]);
            After(events, k, Loop(sz, get, buffer, lim, obs))
            == After(events + t.events, k + 1, Loop(sz, t.get, t.buffer, t.limiter, obs[1..]))
  {
    var t := Turn(sz, get, buffer, lim, obs[0]);
    var r := Loop(sz, t.get, t.buffer, t.limiter, obs[1..]);
    assert events + (t.events + r.events) == (events + t.events) + r.events;
  }

  /** The loop stops on an observation whose `put` equals the cursor. */
  lemma LoopExits(sz: u32, get: u32, buffer: seq<byte>, lim: Limiter, obs: seq<Observation>,
                  events: seq<Event>, k: nat)
    requires IsPowerOfTwo(sz) && RingShaped(sz, obs) && |buffer| == LineBufferSize
    requires |obs| > 0 && obs[0].put == get
    ensures After(events, k, Loop(sz, get, buffer, lim, obs)) == Run(get, buffer, lim, events, k + 1, true)
  {
    assert events + [] == events;
  }

  /** Without observations left the loop is still running. */
  lemma LoopRunsOut(sz: u32, get: u32, buffer: seq<byte>, lim: Limiter, events: seq<Event>, k: nat)
    requires IsPowerOfTwo(sz) && |buffer| == LineBufferSize
    ensures After(events, k, Loop(sz, get, buffer, lim, [])) == Run(get, buffer, lim, events, k, false)
  {
    assert events + [] == events;
  }

  /** One turn of the C loop after `put` was seen to differ from the
      cursor: read a line, re-read `alloc`, then discard the line and jump
      the cursor on overflow, or print it through the limiter and advance
      past it (drivers/trusty/trusty-log.c:87-109). */
  method DrainTurn(sz: u32, get: u32, buffer: seq<byte>, limiter: Limiter, ob: Observation)
    returns (get': u32, buffer': seq<byte>, limiter': Limiter, events: seq<Event>)
    requires IsPowerOfTwo(sz) && |ob.data| == sz && |buffer| == LineBufferSize
    ensures Run(get', buffer', limiter', events, 1, false) == Turn(sz, get, buffer, limiter, ob)
  {
    var readChars;
    readChars, buffer' := LogReadLine(buffer, ob.data, sz, ob.put, get);
    if Sub32(ob.alloc, get) > sz {
      return Sub32(ob.alloc, sz), buffer', limiter, [OverflowError];
    }
    var v := Allow(limiter, ob.now);
    events := if v.allowed then [Info(CString(buffer'))] else [];
    limiter' := v.next;
    get' := Add32(get, readChars);
  }

  /** The C drain loop from cursor `get`: re-read `put` each turn and stop
      when it equals the cursor (drivers/trusty/trusty-log.c:84-110). */
  method DrainLoop(sz: u32, get: u32, buffer: seq<byte>, lim: Limiter, obs: seq<Observation>)
    returns (r: Run)
    requires IsPowerOfTwo(sz) && RingShaped(sz, obs) && |buffer| == LineBufferSize
    ensures r == Loop(sz, get, buffer, lim, obs)
  {
    ghost var whole := Loop(sz, get, buffer, lim, obs);
    var cursor := get;
    var line := buffer;
    var limiter := lim;
    var events: seq<Event> := [];
    var i := 0;
    var done := false;
    while i < |obs| && !done
      invariant 0 <= i <= |obs| && |line| == LineBufferSize
      invariant !done ==> After(events, i, Loop(sz, cursor, line, limiter, obs[i..])) == whole
      invariant done ==> whole == Run(cursor, line, limiter, events, i, true)
      decreases |obs| - i
    {
      var ob := obs[i];
      if ob.put == cursor {
        LoopExits(sz, cursor, line, limiter, obs[i..], events, i);
        done := true;
      } else {
        ghost var t := Turn(sz, cursor, line, limiter, ob);
        assert obs[i..][0] == ob && obs[i..][1..] == obs[i + 1..];
        LoopUnroll(sz, cursor, line, limiter, obs[i..], events, i);
        var turnEvents;
        cursor, line, limiter, turnEvents := DrainTurn(sz, cursor, line, limiter, ob);
        assert cursor == t.get && line == t.buffer && limiter == t.limiter && turnEvents == t.events;
        events := events + turnEvents;
      }
      i := i + 1;
    }
    if !done {
      assert obs[i..] == [];
      LoopRunsOut(sz, cursor, line, limiter, events, i);
    }
    r := Run(cursor, line, limiter, events, i, done);
  }

  /** trusty_dump_logs: refuse a ring size that is not a power of two, run
      the loop, and store the cursor once the loop exits
      (drivers/trusty/trusty-log.c:68-112). */
  method TrustyDumpLogs(s: Consumer, lim: Limiter, sz: u32, obs: seq<Observation>)
    returns (o: Outcome)
    requires Valid(s) && RingShaped(sz, obs)
    ensures o == DumpLogs(s, lim, sz, obs)
  {
    if !IsPowerOfTwo(sz) {
      return Outcome(s, lim, [SizeWarning], 0, true);
    }
    var r := DrainLoop(sz, s.get, s.lineBuffer, lim, obs);
    var get := s.get;
    if r.exited {
      get := r.get;
    }
    o := Outcome(Consumer(get, r.buffer), r.limiter, r.events, r.used, r.exited);
  }
}

=== FILE: drain_properties.dfy ===
/** Properties of the drain: what one turn does on overflow and in the
    normal case, what a printed line contains, how many lines one window of
    the rate limiter lets through, and two worked drains. */
module DrainProperties {
  import opened Config
  import opened Bits
  import opened Counters
  import opened LineReader
  import opened RateLimit
  import opened Drain

  /** The number of printed lines among `events`. */
  function InfoCount(events: seq<Event>): nat
  {
    if |events| == 0 then 0
    else (if events[0].Info? then 1 else 0) + InfoCount(events[1..])
  }

  lemma {:induction false} InfoCountAppend(a: seq<Event>, b: seq<Event>)
    ensures InfoCount(a + b) == InfoCount(a) + InfoCount(b)
    decreases |a|
  {
    if |a| == 0 {
      assert a + b == b;
    } else {
      assert (a + b)[0] == a[0];
      assert (a + b)[1..] == a[1..] + b;
      InfoCountAppend(a[1..], b);
    }
  }

  /** Overflow: when `alloc` read after the copy is more than `sz` ahead of
      the cursor, the line just read is not printed, the only event is the
      overflow error, the limiter is not consulted, and the cursor lands
      exactly `sz` behind `alloc`, so that the same `alloc` would no longer
      count as an overflow (drivers/trusty/trusty-log.c:94, 100-104). */
  lemma OverflowDiscardsLine(sz: u32, get: u32, buffer: seq<byte>, lim: Limiter, ob: Observation)
    requires IsPowerOfTwo(sz) && |ob.data| == sz && |buffer| == LineBufferSize
    requires Sub32(ob.alloc, get) > sz
    ensures Turn(sz, get, buffer, lim, ob).events == [OverflowError]
    ensures InfoCount(Turn(sz, get, buffer, lim, ob).events) == 0
    ensures Turn(sz, get, buffer, lim, ob).get == Sub32(ob.alloc, sz)
    ensures Sub32(ob.alloc, Turn(sz, get, buffer, lim, ob).get) == sz
    ensures Turn(sz, get, buffer, lim, ob).limiter == lim
  {
    var t := Turn(sz, get, buffer, lim, ob);
    assert t.get == Sub32(ob.alloc, sz);
    Sub32Back(ob.alloc, sz);
    assert InfoCount([OverflowError]) == 0 by {
      assert [OverflowError][1..] == [];
    }
  }

  /** Normal case: when `alloc` is at most `sz` ahead, the cursor advances by
      exactly the bytes read whether or not the limiter lets the line
      through, so a suppressed line is never read again; the line is printed
      exactly when the limiter allows it (drivers/trusty/trusty-log.c:106-109). */
  lemma NormalAdvances(sz: u32, get: u32, buffer: seq<byte>, lim: Limiter, ob: Observation)
    requires IsPowerOfTwo(sz) && |ob.data| == sz && |buffer| == LineBufferSize
    requires Sub32(ob.alloc, get) <= sz
    ensures var line := ReadLine(buffer, ob.data, sz, ob.put, get);
            var t := Turn(sz, get, buffer, lim, ob);
            Sub32(t.get, get) == line.count
            && t.limiter == Allow(lim, ob.now).next
            && (t.events == [Info(CString(line.buffer))] <==> Allow(lim, ob.now).allowed)
            && (t.events == [] <==> !Allow(lim, ob.now).allowed)
  {
    var line := ReadLine(buffer, ob.data, sz, ob.put, get);
    Sub32Inverts(get, get, line.count);
  }

  /** "%s" stops at the terminator log_read_line writes: the printed text is
      the line read, cut at its first NUL byte, and the whole line when it
      holds none (drivers/trusty/trusty-log.c:63, 107). */
  lemma {:induction false} CStringStopsAtTerminator(buf: seq<byte>, n: nat)
    requires n < |buf| && buf[n] == Nul
    ensures CString(buf) == CString(buf[..n])
    ensures Nul !in buf[..n] ==> CString(buf) == buf[..n]
    decreases n
  {
    if n > 0 && buf[0] != Nul {
      CStringStopsAtTerminator(buf[1..], n - 1);
      assert buf[1..][..n - 1] == buf[..n][1..];
    }
  }

  /** The text printed for a line is the line read, up to its first NUL. */
  lemma PrintedText(scratch: seq<byte>, data: seq<byte>, sz: u32, put: u32, get: u32)
    requires |scratch| == LineBufferSize && sz > 0 && |data| == sz
    ensures var r := ReadLine(scratch, data, sz, put, get);
            CString(r.buffer) == CString(r.buffer[..r.count])
            && (Nul !in r.buffer[..r.count] ==> CString(r.buffer) == r.buffer[..r.count])
  {
    var r := ReadLine(scratch, data, sz, put, get);
    CStringStopsAtTerminator(r.buffer, r.count);
  }

  /** While every turn happens inside one open window of the limiter, the
      loop prints no more lines than the window has quota left: overflow
      turns do not touch the limiter and normal turns spend one unit per
      printed line. The limiter handed back keeps the same window, and what
      it has left is the quota less the lines printed, so a later drain in
      the same window is bounded by the rest (drivers/trusty/trusty-log.c:28-29,
      106-107). */
  lemma {:induction false} LoopEmissionBound(sz: u32, get: u32, buffer: seq<byte>, lim: Limiter,
                                             obs: seq<Observation>)
    requires IsPowerOfTwo(sz) && RingShaped(sz, obs) && |buffer| == LineBufferSize
    requires lim.interval > 0
    requires forall k :: 0 <= k < |obs| ==> InWindow(lim, obs[k].now)
    ensures InfoCount(Loop(sz, get, buffer, lim, obs).events) <= Quota(lim)
    ensures var r := Loop(sz, get, buffer, lim, obs);
            InfoCount(r.events) + Quota(r.limiter) == Quota(lim)
            && r.limiter == lim.(printed := r.limiter.printed)
    decreases |obs|
  {
    if |obs| == 0 || obs[0].put == get {
      assert Loop(sz, get, buffer, lim, obs).events == [];
    } else {
      var t := Turn(sz, get, buffer, lim, obs[0]);
      var rest := obs[1..];
      if Sub32(obs[0].alloc, get) > sz {
        OverflowDiscardsLine(sz, get, buffer, lim, obs[0]);
      } else {
        AllowSpendsQuota(lim, obs[0].now);
        NormalAdvances(sz, get, buffer, lim, obs[0]);
        assert InfoCount(t.events) == if Allow(lim, obs[0].now).allowed then 1 else 0 by {
          if Allow(lim, obs[0].now).allowed {
            assert t.events[1..] == [];
          }
        }
        assert t.limiter == lim.(printed := t.limiter.printed);
      }
      assert forall k :: 0 <= k < |rest| ==> InWindow(t.limiter, rest[k].now) by {
        forall k | 0 <= k < |rest|
          ensures InWindow(t.limiter, rest[k].now)
        {
          assert InWindow(lim, obs[k + 1].now);
        }
      }
      LoopEmissionBound(sz, t.get, t.buffer, t.limiter, rest);
      InfoCountAppend(t.events, Loop(sz, t.get, t.buffer, t.limiter, rest).events);
    }
  }

  /** A loop that starts with no window open and whose turns all happen
      within one window length from time `a` prints at most the limiter's
      burst: the first line offered to the limiter opens a window at a time
      no earlier than `a`, and every later turn falls inside that window.
      The limiter handed back still fits the span from `a`, and what it has
      left for that span is the burst less the lines printed
      (drivers/trusty/trusty-log.c:28-29, 106-107). */
  lemma {:induction false} LoopEmissionBoundFromClosed(sz: u32, get: u32, buffer: seq<byte>,
                                                       lim: Limiter, obs: seq<Observation>, a: int)
    requires IsPowerOfTwo(sz) && RingShaped(sz, obs) && |buffer| == LineBufferSize
    requires lim.interval > 0 && ClosedBy(lim, a)
    requires forall k :: 0 <= k < |obs| ==> a <= obs[k].now <= a + lim.interval
    ensures InfoCount(Loop(sz, get, buffer, lim, obs).events) <= lim.burst
    ensures var r := Loop(sz, get, buffer, lim, obs);
            WindowFrom(r.limiter, a) && InfoCount(r.events) + Budget(r.limiter, a) == lim.burst
            && r.limiter.interval == lim.interval && r.limiter.burst == lim.burst
    decreases |obs|
  {
    if |obs| == 0 || obs[0].put == get {
      assert Loop(sz, get, buffer, lim, obs).events == [];
    } else {
      var t := Turn(sz, get, buffer, lim, obs[0]);
      var rest := obs[1..];
      assert forall k :: 0 <= k < |rest| ==> a <= rest[k].now <= a + lim.interval by {
        forall k | 0 <= k < |rest|
          ensures a <= rest[k].now <= a + lim.interval
        {
          assert rest[k] == obs[k + 1];
        }
      }
      if Sub32(obs[0].alloc, get) > sz {
        OverflowDiscardsLine(sz, get, buffer, lim, obs[0]);
        LoopEmissionBoundFromClosed(sz, t.get, t.buffer, t.limiter, rest, a);
      } else {
        var now := obs[0].now;
        AllowOpensWindow(lim, now);
        NormalAdvances(sz, get, buffer, lim, obs[0]);
        assert InfoCount(t.events) == if Allow(lim, now).allowed then 1 else 0 by {
          if Allow(lim, now).allowed {
            assert t.events[1..] == [];
          }
        }
        assert forall k :: 0 <= k < |rest| ==> InWindow(t.limiter, rest[k].now);
        LoopEmissionBound(sz, t.get, t.buffer, t.limiter, rest);
        var r := Loop(sz, t.get, t.buffer, t.limiter, rest);
        assert r.limiter.started && a <= r.limiter.begin;
        assert Budget(r.limiter, a) == Quota(r.limiter);
        assert InfoCount(t.events) + Quota(t.limiter) == lim.burst;
      }
      InfoCountAppend(t.events, Loop(sz, t.get, t.buffer, t.limiter, rest).events);
    }
  }

  /** A drain whose turns all happen within one window length from time
      `a` prints at most the limiter's burst (100 lines for
      trusty_log_rate_limit), whether the window is already open for that
      whole span or no window is open at `a`: the first drain on a fresh
      limiter, or a burst of output after a quiet spell. The static limiter
      it hands on still fits the span from `a`, and what it has left for the
      span is what it had less the lines this drain printed
      (drivers/trusty/trusty-log.c:28-29, 74-75, 106-107). */
  lemma DrainEmissionBound(s: Consumer, lim: Limiter, sz: u32, obs: seq<Observation>, a: int)
    requires Valid(s) && RingShaped(sz, obs)
    requires lim.interval > 0
    requires WindowFrom(lim, a)
    requires forall k :: 0 <= k < |obs| ==> a <= obs[k].now <= a + lim.interval
    ensures InfoCount(DumpLogs(s, lim, sz, obs).events) <= lim.burst
    ensures var o := DumpLogs(s, lim, sz, obs);
            WindowFrom(o.limiter, a) && InfoCount(o.events) + Budget(o.limiter, a) == Budget(lim, a)
            && o.limiter.interval == lim.interval && o.limiter.burst == lim.burst
  {
    if !IsPowerOfTwo(sz) {
      assert [SizeWarning][1..] == [];
    } else if ClosedBy(lim, a) {
      LoopEmissionBoundFromClosed(sz, s.get, s.lineBuffer, lim, obs, a);
    } else {
      assert forall k :: 0 <= k < |obs| ==> InWindow(lim, obs[k].now);
      LoopEmissionBound(sz, s.get, s.lineBuffer, lim, obs);
      var r := Loop(sz, s.get, s.lineBuffer, lim, obs);
      assert r.limiter.started && a <= r.limiter.begin;
      assert Budget(r.limiter, a) == Quota(r.limiter);
    }
  }

  /** Successive drains, one per call of trusty_dump_logs from the call or
      panic notifier, each given its own observations. They share the
      consumer state and the static limiter, and their events follow one
      another (drivers/trusty/trusty-log.c:28-29, 113-144). */
  function Drains(s: Consumer, lim: Limiter, sz: u32, batches: seq<seq<Observation>>): (o: Outcome)
    requires Valid(s) && forall k :: 0 <= k < |batches| ==> RingShaped(sz, batches[k])
    ensures Valid(o.consumer)
    ensures o.used == 0 ==> o.limiter == lim
    decreases |batches|
  {
    if |batches| == 0 then Outcome(s, lim, [], 0, true)
    else
      var d := DumpLogs(s, lim, sz, batches[0]);
      var r := Drains(d.consumer, d.limiter, sz, batches[1..]);
      Outcome(r.consumer, r.limiter, d.events + r.events, d.used + r.used, d.returned && r.returned)
  }

  /** Any number of drains whose turns all happen within one window length
      from time `a` print at most the limiter's burst between them, because
      they share the static limiter: each drain spends the budget the ones
      before it left. */
  lemma {:induction false} DrainsEmissionBound(s: Consumer, lim: Limiter, sz: u32,
                                               batches: seq<seq<Observation>>, a: int)
    requires Valid(s) && forall k :: 0 <= k < |batches| ==> RingShaped(sz, batches[k])
    requires lim.interval > 0 && WindowFrom(lim, a)
    requires forall k, j :: 0 <= k < |batches| && 0 <= j < |batches[k]| ==>
               a <= batches[k][j].now <= a + lim.interval
    ensures InfoCount(Drains(s, lim, sz, batches).events) <= lim.burst
    ensures var o := Drains(s, lim, sz, batches);
            WindowFrom(o.limiter, a) && InfoCount(o.events) + Budget(o.limiter, a) == Budget(lim, a)
    decreases |batches|
  {
    if |batches| == 0 {
      assert Drains(s, lim, sz, batches).events == [];
    } else {
      var d := DumpLogs(s, lim, sz, batches[0]);
      var rest: seq<seq<Observation>> := batches[1..];
      DrainEmissionBound(s, lim, sz, batches[0], a);
      assert forall k, j :: 0 <= k < |rest| && 0 <= j < |rest[k]| ==>
               a <= rest[k][j].now <= a + d.limiter.interval by {
        forall k, j | 0 <= k < |rest| && 0 <= j < |rest[k]|
          ensures a <= rest[k][j].now <= a + d.limiter.interval
        {
          assert rest[k] == batches[k + 1];
        }
      }
      DrainsEmissionBound(d.consumer, d.limiter, sz, rest, a);
      InfoCountAppend(d.events, Drains(d.consumer, d.limiter, sz, rest).events);
    }
  }

  /** The first drain after the driver starts prints at most 100 lines in
      its first second, whatever the producer wrote. */
  lemma FreshDrainBound(s: Consumer, hz: nat, sz: u32, obs: seq<Observation>, a: int)
    requires Valid(s) && RingShaped(sz, obs) && hz > 0
    requires forall k :: 0 <= k < |obs| ==> a <= obs[k].now <= a + hz
    ensures InfoCount(DumpLogs(s, Initial(hz), sz, obs).events) <= RateLimitBurst
  {
    DrainEmissionBound(s, Initial(hz), sz, obs, a);
  }

  /** All drains in the first second after the driver starts print at most
      100 lines between them, however many times the secure side returns. */
  lemma FreshDrainsBound(s: Consumer, hz: nat, sz: u32, batches: seq<seq<Observation>>, a: int)
    requires Valid(s) && forall k :: 0 <= k < |batches| ==> RingShaped(sz, batches[k])
    requires hz > 0
    requires forall k, j :: 0 <= k < |batches| && 0 <= j < |batches[k]| ==>
               a <= batches[k][j].now <= a + hz
    ensures InfoCount(Drains(s, Initial(hz), sz, batches).events) <= RateLimitBurst
  {
    DrainsEmissionBound(s, Initial(hz), sz, batches, a);
  }

  /** A producer that has written nothing since the last drain: the first
      `put` read equals the cursor, so the drain returns at once, prints
      nothing and stores the cursor it started from. */
  lemma QuietProducer(s: Consumer, lim: Limiter, sz: u32, obs: seq<Observation>)
    requires Valid(s) && RingShaped(sz, obs) && IsPowerOfTwo(sz)
    requires |obs| > 0 && obs[0].put == s.get
    ensures DumpLogs(s, lim, sz, obs) == Outcome(s, lim, [], 1, true)
  {
  }

  /** A ring of 16 bytes holding "hi\n" at its start, as the producer leaves
      it after committing the line. */
  function HiRing(): (data: seq<byte>)
    ensures |data| == 16
  {
    [104, 105, Newline] + seq(13, _ => Nul)
  }

  /** The line read from the "hi\n" ring with `put` at 3 is "hi\n", and it
      is printed in full. */
  lemma HiLine(buffer: seq<byte>)
    requires |buffer| == LineBufferSize
    ensures var line := ReadLine(buffer, HiRing(), 16, 3, 0);
            line.count == 3 && CString(line.buffer) == [104, 105, Newline]
  {
    assert MaxToRead(3, 0) == 3;
    var w := Window(HiRing(), 16, 0, 3);
    assert w == [104, 105, Newline];
    LineOfUnique(w, TakeLine(w), w);
    var line := ReadLine(buffer, HiRing(), 16, 3, 0);
    assert line.buffer[..line.count] == w;
    PrintedText(buffer, HiRing(), 16, 3, 0);
  }

  /** The only turn of the worked drain prints "hi\n" and moves the cursor
      to 3. */
  lemma HiTurn(hz: nat, now: int, buffer: seq<byte>)
    requires |buffer| == LineBufferSize
    ensures IsPowerOfTwo(16)
    ensures var t := Turn(16, 0, buffer, Initial(hz), Observation(3, HiRing(), 3, now));
            t.get == 3 && t.events == [Info([104, 105, Newline])]
  {
    assert IsPowerOfTwo(16);
    assert Sub32(3, 0) == 3;
    HiLine(buffer);
    FirstCallAllowed(hz, now);
  }

  /** Worked drain: a fresh consumer, the producer has written "hi\n" and
      moved `put` and `alloc` to 3. Whatever the tick rate and the times of
      the turns, the drain prints that one line, newline included, in one
      turn, and returns with the cursor at 3 on the second read of `put`. */
  lemma ScenarioHi(hz: nat, t0: int, t1: int)
    ensures var obs := [Observation(3, HiRing(), 3, t0), Observation(3, HiRing(), 3, t1)];
            var o := DumpLogs(Attach(), Initial(hz), 16, obs);
            o.events == [Info([104, 105, Newline])] && o.consumer.get == 3 && o.returned
            && o.used == 2
  {
    var obs := [Observation(3, HiRing(), 3, t0), Observation(3, HiRing(), 3, t1)];
    var s := Attach();
    HiTurn(hz, t0, s.lineBuffer);
    var first := Turn(16, 0, s.lineBuffer, Initial(hz), obs[0]);
    assert obs[1..] == [obs[1]];
    var last := Loop(16, 3, first.buffer, first.limiter, obs[1..]);
    assert last.events == [] && last.get == 3 && last.exited && last.used == 1;
  }

  /** A ring of 16 bytes all holding the byte `b`. */
  function FullRing(b: byte): (data: seq<byte>)
    ensures |data| == 16 && forall k :: 0 <= k < 16 ==> data[k] == b
  {
    seq(16, _ => b)
  }

  /** First turn of the worked overflow: 20 bytes were written into a ring
      of 16, so the line is discarded and the cursor jumps to 4. */
  lemma OverflowFirstTurn(hz: nat, now: int, buffer: seq<byte>, b: byte)
    requires |buffer| == LineBufferSize
    ensures IsPowerOfTwo(16)
    ensures var t := Turn(16, 0, buffer, Initial(hz), Observation(20, FullRing(b), 20, now));
            t.get == 4 && t.events == [OverflowError] && t.limiter == Initial(hz)
  {
    assert IsPowerOfTwo(16);
    assert Sub32(20, 0) == 20 && Sub32(20, 16) == 4;
    OverflowDiscardsLine(16, 0, buffer, Initial(hz), Observation(20, FullRing(b), 20, now));
  }

  /** From cursor 4 with `put` at 20, the 16 bytes of the full ring are read
      as one line, wrapping round the end of the ring. */
  lemma FullRingWindow(b: byte)
    ensures MaxToRead(20, 4) == 16
    ensures Window(FullRing(b), 16, 4, 16) == FullRing(b)
  {
    var w := Window(FullRing(b), 16, 4, 16);
    forall k | 0 <= k < 16
      ensures w[k] == FullRing(b)[k]
    {
      assert w[k] == FullRing(b)[(4 + k) % 16];
    }
  }

  /** The line read in the second turn of the worked overflow is the whole
      ring, and it is printed in full. */
  lemma FullRingLine(buffer: seq<byte>, b: byte)
    requires |buffer| == LineBufferSize && b != Newline && b != Nul
    ensures var line := ReadLine(buffer, FullRing(b), 16, 20, 4);
            line.count == 16 && CString(line.buffer) == FullRing(b)
  {
    FullRingWindow(b);
    FullRingIsOneLine(b);
    var line := ReadLine(buffer, FullRing(b), 16, 20, 4);
    assert line.buffer[..line.count] == FullRing(b);
    PrintedText(buffer, FullRing(b), 16, 20, 4);
  }

  /** The full ring holds neither a newline nor a NUL, so it is one line and
      prints whole. */
  lemma FullRingIsOneLine(b: byte)
    requires b != Newline && b != Nul
    ensures TakeLine(FullRing(b)) == FullRing(b)
    ensures Nul !in FullRing(b)
  {
    var w := FullRing(b);
    assert IsLineOf(w, w);
    LineOfUnique(w, TakeLine(w), w);
  }

  /** Second turn of the worked overflow: from cursor 4 the 16 bytes still in
      the ring are read as one line and printed, and the cursor reaches 20. */
  lemma OverflowSecondTurn(hz: nat, now: int, buffer: seq<byte>, b: byte)
    requires |buffer| == LineBufferSize && b != Newline && b != Nul
    ensures IsPowerOfTwo(16)
    ensures var t := Turn(16, 4, buffer, Initial(hz), Observation(20, FullRing(b), 20, now));
            t.get == 20 && t.events == [Info(FullRing(b))]
  {
    assert IsPowerOfTwo(16);
    assert Sub32(20, 4) == 16;
    FullRingLine(buffer, b);
    FirstCallAllowed(hz, now);
    var line := ReadLine(buffer, FullRing(b), 16, 20, 4);
    var t := Turn(16, 4, buffer, Initial(hz), Observation(20, FullRing(b), 20, now));
    assert t.get == Add32(4, line.count);
    assert Add32(4, 16) == 20;
  }

  /** A loop whose first turn leaves the cursor at the next `put` read:
      it takes that one turn and then exits. */
  lemma OneTurnThenExit(sz: u32, get: u32, buffer: seq<byte>, lim: Limiter, obs: seq<Observation>)
    requires IsPowerOfTwo(sz) && RingShaped(sz, obs) && |buffer| == LineBufferSize
    requires |obs| == 2 && obs[0].put != get
    requires obs[1].put == Turn(sz, get, buffer, lim, obs[0]).get
    ensures var t := Turn(sz, get, buffer, lim, obs[0]);
            Loop(sz, get, buffer, lim, obs) == Run(t.get, t.buffer, t.limiter, t.events, 2, true)
  {
    var t := Turn(sz, get, buffer, lim, obs[0]);
    assert obs[1..] == [obs[1]];
    assert t.events + [] == t.events;
  }

  /** The rest of the worked overflow from cursor 4: one turn prints the
      ring, and the next read of `put` ends the loop at 20, whatever the
      second observation's `alloc` and time. */
  lemma OverflowTail(hz: nat, obs: seq<Observation>, buffer: seq<byte>, b: byte)
    requires |buffer| == LineBufferSize && b != Newline && b != Nul
    requires |obs| == 2 && obs[0].put == 20 && obs[0].alloc == 20 && obs[0].data == FullRing(b)
    requires obs[1].put == 20 && obs[1].data == FullRing(b)
    ensures IsPowerOfTwo(16) && RingShaped(16, obs)
    ensures var r := Loop(16, 4, buffer, Initial(hz), obs);
            r.events == [Info(FullRing(b))] && r.get == 20 && r.exited && r.used == 2
  {
    var ring := FullRing(b);
    assert IsPowerOfTwo(16) && |ring| == 16 by {
      OverflowSecondTurn(hz, obs[0].now, buffer, b);
    }
    var t := Turn(16, 4, buffer, Initial(hz), obs[0]);
    assert t.get == 20 && t.events == [Info(ring)] by {
      assert obs[0] == Observation(20, ring, 20, obs[0].now);
      OverflowSecondTurn(hz, obs[0].now, buffer, b);
    }
    forall k | 0 <= k < |obs|
      ensures |obs[k].data| == 16
    {
      assert k == 0 || k == 1;
    }
    OneTurnThenExit(16, 4, buffer, Initial(hz), obs);
  }

  /** Worked overflow: a fresh consumer, the producer has written 20 copies
      of a byte that is neither a newline nor a NUL into a ring of 16, so
      `put` and `alloc` are 20.
      Whatever the tick rate and the times of the turns, the first turn reads
      20 bytes, sees `alloc` 20 bytes ahead of the cursor, discards the line
      and jumps to 4; the second turn prints the 16 bytes still in the ring;
      the third read of `put` ends the drain at 20. */
  lemma ScenarioOverflow(hz: nat, t0: int, t1: int, t2: int, b: byte)
    requires b != Newline && b != Nul
    ensures var obs := [Observation(20, FullRing(b), 20, t0), Observation(20, FullRing(b), 20, t1),
                        Observation(20, FullRing(b), 20, t2)];
            var o := DumpLogs(Attach(), Initial(hz), 16, obs);
            o.events == [OverflowError, Info(FullRing(b))] && o.consumer.get == 20
            && o.returned && o.used == 3
  {
    var obs := [Observation(20, FullRing(b), 20, t0), Observation(20, FullRing(b), 20, t1),
                Observation(20, FullRing(b), 20, t2)];
    var s := Attach();
    OverflowFirstTurn(hz, t0, s.lineBuffer, b);
    var first := Turn(16, 0, s.lineBuffer, Initial(hz), obs[0]);
    assert obs[1..] == [obs[1], obs[2]];
    OverflowTail(hz, obs[1..], first.buffer, b);
  }
}

=== FILE: line_reader.dfy ===
/** log_read_line (drivers/trusty/trusty-log.c:52-66): copy one line of the
    ring, starting at the consumer's counter, into the line scratch buffer.

    `ReadLine` says declaratively which bytes end up in the buffer;
    `LogReadLine` is the C loop, with its `int` counter, sign-extended index
    and mask, and is proved to compute exactly that. */
module LineReader {
  import opened Config
  import opened Bits
  import opened Counters

  /** The `len` bytes a reader starting at counter `from` meets in a ring of
      `sz` bytes. */
  function Window(data: seq<byte>, sz: u32, from: u32, len: nat): (w: seq<byte>)
    requires sz > 0 && |data| == sz
    ensures |w| == len
    ensures forall k :: 0 <= k < len ==> w[k] == data[(from + k) % sz]
  {
    seq(len, k requires 0 <= k < len => data[(from + k) % sz])
  }

  /** `line` is the first line of `w`: a prefix of it with no newline except
      possibly as its last byte, which stops either at a newline or at the end
      of `w`. */
  predicate IsLineOf(w: seq<byte>, line: seq<byte>)
  {
    line <= w
    && (forall k :: 0 <= k < |line| - 1 ==> line[k] != Newline)
    && (|line| == |w| || (|line| > 0 && line[|line| - 1] == Newline))
  }

  /** The bytes of `w` up to and including its first newline, or all of `w`
      when it has none. */
  function TakeLine(w: seq<byte>): (line: seq<byte>)
    ensures IsLineOf(w, line)
  {
    if |w| == 0 then []
    else if w[0] == Newline then [w[0]]
    else [w[0]] + TakeLine(w[1..])
  }

  /** A window has only one first line, so `TakeLine` is the only function
      meeting its contract. */
  lemma LineOfUnique(w: seq<byte>, a: seq<byte>, b: seq<byte>)
    requires IsLineOf(w, a) && IsLineOf(w, b)
    ensures a == b
  {
  }

  /** What log_read_line leaves behind: the number of bytes copied and the
      whole line buffer. */
  datatype LineRead = LineRead(count: nat, buffer: seq<byte>)

  /** The line log_read_line reads: the first line of the next
      `max_to_read` bytes of the ring, copied in order into the buffer and
      followed by a NUL, the rest of the buffer left as it was. At most 255
      bytes are copied, so the terminator lies inside the 256-byte buffer,
      and at least one byte is copied whenever `put` differs from `get`
      (drivers/trusty/trusty-log.c:57-63). */
  function ReadLine(scratch: seq<byte>, data: seq<byte>, sz: u32, put: u32, get: u32): (r: LineRead)
    requires |scratch| == LineBufferSize
    requires sz > 0 && |data| == sz
    ensures r.count <= MaxToRead(put, get) < |r.buffer| == LineBufferSize
    ensures IsLineOf(Window(data, sz, get, MaxToRead(put, get)), r.buffer[..r.count])
    ensures forall k :: 0 <= k < r.count ==> r.buffer[k] == data[(get + k) % sz]
    ensures r.buffer[r.count] == Nul
    ensures r.buffer[r.count + 1..] == scratch[r.count + 1..]
    ensures put != get ==> r.count >= 1
  {
    var line := TakeLine(Window(data, sz, get, MaxToRead(put, get)));
    LineRead(|line|, line + [Nul] + scratch[|line| + 1..])
  }

  /** One turn of the copy loop: the sign-extended, masked `int` counter
      selects the slot `(get + i) mod sz`, which holds byte `i` of the window,
      and its wrapped increment mirrors the next unsigned counter. */
  lemma CopyStep(data: seq<byte>, sz: u32, get: u32, n: nat, i: nat, g: int)
    requires IsPowerOfTwo(sz) && |data| == sz && i < n
    requires g == AsInt(Add32(get, i))
    ensures BitAnd(ToSizeT(g), sz - 1) == (get + i) % sz
    ensures data[BitAnd(ToSizeT(g), sz - 1)] == Window(data, sz, get, n)[i]
    ensures WrapInt(g + 1) == AsInt(Add32(get, i + 1))
  {
    SignExtendedIndex(Add32(get, i), sz);
    IndexIgnoresWrap(get, i, sz);
    WrapIntIncrement(Add32(get, i));
    Add32Twice(get, i, 1);
  }

  /** The copy loop's progress after `i` bytes: the buffer starts with the
      first `i` bytes of the window `w`, none of them but the last a newline,
      and holds the scratch bytes after them. */
  predicate Copied(scratch: seq<byte>, w: seq<byte>, buffer: seq<byte>, i: nat)
  {
    i <= |w| && i <= |buffer| == |scratch|
    && buffer[..i] == w[..i] && buffer[i..] == scratch[i..]
    && forall k :: 0 <= k < i - 1 ==> buffer[k] != Newline
  }

  /** Storing the next window byte extends the copied prefix by one byte
      and leaves the rest of the scratch buffer alone; the byte stored before
      it was not a newline, or the loop would have stopped. */
  lemma CopyExtends(scratch: seq<byte>, w: seq<byte>, buffer: seq<byte>, i: nat, next: seq<byte>)
    requires Copied(scratch, w, buffer, i) && i < |w| && i < |buffer|
    requires i > 0 ==> buffer[i - 1] != Newline
    requires next == buffer[i := w[i]]
    ensures Copied(scratch, w, next, i + 1) && next[i] == w[i]
  {
    assert next[..i + 1] == buffer[..i] + [w[i]];
    assert w[..i + 1] == w[..i] + [w[i]];
    assert next[i + 1..] == buffer[i + 1..];
  }

  /** Bytes copied up to the cap or up to a newline are the first line of
      the window. */
  lemma CopiedLine(scratch: seq<byte>, w: seq<byte>, buffer: seq<byte>, i: nat)
    requires Copied(scratch, w, buffer, i)
    requires i == |w| || (i > 0 && buffer[i - 1] == Newline)
    ensures buffer[..i] == TakeLine(w)
  {
    var line := buffer[..i];
    assert IsLineOf(w, line);
    LineOfUnique(w, line, TakeLine(w));
  }

  /** Writing the terminator after the copied bytes. */
  lemma Terminate(scratch: seq<byte>, w: seq<byte>, buffer: seq<byte>, i: nat)
    requires Copied(scratch, w, buffer, i) && i < |buffer|
    ensures buffer[i := Nul] == buffer[..i] + [Nul] + scratch[i + 1..]
  {
    assert buffer[i := Nul][i + 1..] == buffer[i + 1..];
  }

  /** When the copy loop stops, at the cap or after a newline, terminating
      the copied bytes yields `ReadLine`. */
  lemma CopyDone(scratch: seq<byte>, data: seq<byte>, sz: u32, put: u32, get: u32,
                 i: nat, buffer: seq<byte>)
    requires |scratch| == LineBufferSize
    requires sz > 0 && |data| == sz
    requires Copied(scratch, Window(data, sz, get, MaxToRead(put, get)), buffer, i)
    requires i == MaxToRead(put, get) || (i > 0 && buffer[i - 1] == Newline)
    ensures LineRead(i, buffer[i := Nul]) == ReadLine(scratch, data, sz, put, get)
  {
    var w := Window(data, sz, get, MaxToRead(put, get));
    CopiedLine(scratch, w, buffer, i);
    Terminate(scratch, w, buffer, i);
  }

  /** The C loop of log_read_line: `int` counter incremented with
      wrap-around, index `get & (sz - 1)` taken after sign extension to
      `size_t`, stop after a newline or after `max_to_read` bytes, then the
      terminator (drivers/trusty/trusty-log.c:52-66). */
  method LogReadLine(scratch: seq<byte>, data: seq<byte>, sz: u32, put: u32, get: u32)
    returns (count: nat, buffer: seq<byte>)
    requires |scratch| == LineBufferSize
    requires IsPowerOfTwo(sz) && |data| == sz
    ensures LineRead(count, buffer) == ReadLine(scratch, data, sz, put, get)
  {
    var maxToRead := MaxToRead(put, get);
    var mask := sz - 1;
    var g := AsInt(get);
    var c := Nul;
    var i: nat := 0;
    buffer := scratch;
    ghost var w := Window(data, sz, get, maxToRead);
    while i < maxToRead && c != Newline
      invariant i <= maxToRead
      invariant g == AsInt(Add32(get, i))
      invariant Copied(scratch, w, buffer, i)
      invariant c == if i == 0 then Nul else buffer[i - 1]
    {
      CopyStep(data, sz, get, maxToRead, i, g);
      c := data[BitAnd(ToSizeT(g), mask)];
      CopyExtends(scratch, w, buffer, i, buffer[i := c]);
      buffer := buffer[i := c];
      g := WrapInt(g + 1);
      i := i + 1;
    }
    CopyDone(scratch, data, sz, put, get, i, buffer);
    buffer := buffer[i := Nul];
    count := i;
  }
}

=== FILE: rate_limit.dfy ===
/** The rate limiter `trusty_log_rate_limit` (drivers/trusty/trusty-log.c:28-29)
    and an abstract model of the kernel's __ratelimit, which decides whether
    a drained line is printed (drivers/trusty/trusty-log.c:106).

    The limiter keeps a window that starts at the first call; within a window
    of `interval` ticks at most `burst` calls are allowed. A call after the
    window has run out opens a new window at the time of that call. Time is
    the jiffies counter, supplied by the caller. */
module RateLimit {
  import opened Config

  datatype Limiter = Limiter(interval: nat, burst: nat, started: bool, begin: int, printed: nat)

  /** The outcome of one __ratelimit call: whether the caller may print, and
      the limiter afterwards. */
  datatype Verdict = Verdict(allowed: bool, next: Limiter)

  /** RATELIMIT_STATE_INIT("trusty_log", 1 * HZ, 100) for a kernel ticking
      `hz` times a second: a window of one second, a burst of 100, nothing
      printed and no window opened yet. */
  function Initial(hz: nat): (l: Limiter)
    ensures l.interval == RateLimitSeconds * hz
    ensures l.burst == RateLimitBurst
    ensures !l.started && l.printed == 0
  {
    Limiter(RateLimitSeconds * hz, RateLimitBurst, false, 0, 0)
  }

  /** A call at `now` falls into the limiter's open window: a window was
      opened and has not run out by `now`. __ratelimit only tests whether the
      window has expired, so a call timed before `begin` counts in it too. */
  predicate InWindow(l: Limiter, now: int)
  {
    l.started && now <= l.begin + l.interval
  }

  /** No window is open from time `a` on: none was ever opened (and nothing
      was counted), or the last one ran out before `a`. */
  predicate ClosedBy(l: Limiter, a: int)
  {
    (!l.started && l.printed == 0) || (l.started && l.begin + l.interval < a)
  }

  /** The limiter's window state fits a span of one window length starting
      at time `a`: no window is open at `a`, or the open one began at `a` or
      later, so the whole span falls inside one window. */
  predicate WindowFrom(l: Limiter, a: int)
  {
    ClosedBy(l, a) || (l.started && a <= l.begin)
  }

  /** Calls the current window still allows. */
  function Quota(l: Limiter): nat
  {
    if l.printed < l.burst then l.burst - l.printed else 0
  }

  /** The lines the limiter may still let through in the span of one window
      length from `a`: a full burst when no window is open at `a`, and
      otherwise what the open window has left. */
  function Budget(l: Limiter, a: int): (n: nat)
    ensures n <= l.burst
  {
    if ClosedBy(l, a) then l.burst else Quota(l)
  }

  /** One __ratelimit call at time `now`. A zero interval disables limiting.
      Otherwise the first call opens a window, a call past the end of the
      window opens a new one with nothing printed, and the call is allowed,
      and counted, while fewer than `burst` calls were allowed in the window.
      The configuration never changes, and a limiter that never printed
      more than its burst never will. */
  function Allow(l: Limiter, now: int): (v: Verdict)
    ensures v.next.interval == l.interval && v.next.burst == l.burst
    ensures l.printed <= l.burst ==> v.next.printed <= v.next.burst
    ensures l.interval == 0 ==> v.allowed && v.next == l
  {
    if l.interval == 0 then Verdict(true, l)
    else
      var began := if l.started then l else l.(started := true, begin := now);
      var current := if now > began.begin + began.interval
                     then began.(begin := now, printed := 0)
                     else began;
      if current.printed < current.burst
      then Verdict(true, current.(printed := current.printed + 1))
      else Verdict(false, current)
  }

  /** Inside an open window a call keeps the window, is allowed exactly when
      quota remains, and spends one unit of quota when allowed. */
  lemma AllowSpendsQuota(l: Limiter, now: int)
    requires l.interval > 0 && InWindow(l, now)
    ensures Allow(l, now).next.started && Allow(l, now).next.begin == l.begin
    ensures Allow(l, now).allowed <==> Quota(l) > 0
    ensures Quota(Allow(l, now).next) == Quota(l) - (if Allow(l, now).allowed then 1 else 0)
  {
  }

  /** A call after the window has run out (or before any window was opened)
      opens a window at `now` with the full burst, and is allowed unless the
      burst is zero. */
  lemma AllowOpensWindow(l: Limiter, now: int)
    requires l.interval > 0
    requires !l.started || now > l.begin + l.interval
    requires l.started || l.printed == 0
    ensures InWindow(Allow(l, now).next, now) && Allow(l, now).next.begin == now
    ensures Allow(l, now).allowed <==> l.burst > 0
    ensures Quota(Allow(l, now).next) == if l.burst > 0 then l.burst - 1 else 0
  {
  }

  /** The first call to a freshly initialised limiter is always allowed. */
  lemma FirstCallAllowed(hz: nat, now: int)
    ensures Allow(Initial(hz), now).allowed
  {
  }

  /** The number of calls allowed out of a run of calls at `times`. */
  function AllowedCount(l: Limiter, times: seq<int>): nat
    decreases |times|
  {
    if |times| == 0 then 0
    else
      var v := Allow(l, times[0]);
      (if v.allowed then 1 else 0) + AllowedCount(v.next, times[1..])
  }

  /** Calls that all fall into one open window are allowed up to the quota
      the window had left and no further: at most `burst` lines per window. */
  lemma {:induction false} WindowQuota(l: Limiter, times: seq<int>)
    requires l.interval > 0
    requires forall k :: 0 <= k < |times| ==> InWindow(l, times[k])
    ensures AllowedCount(l, times) == if |times| < Quota(l) then |times| else Quota(l)
    decreases |times|
  {
    if |times| > 0 {
      AllowSpendsQuota(l, times[0]);
      var v := Allow(l, times[0]);
      assert forall k :: 0 <= k < |times[1..]| ==> InWindow(v.next, times[1..][k]) by {
        forall k | 0 <= k < |times[1..]|
          ensures InWindow(v.next, times[1..][k])
        {
          assert InWindow(l, times[k + 1]);
        }
      }
      WindowQuota(v.next, times[1..]);
    }
  }
}
